=== FILE: README.md ===
# elb-copy-util, modelled in Dafny

`index.js` migrates the configuration of an Application Load Balancer to another
load balancer. It copies a listener onto a destination load balancer and then
copies the listener's rules onto the new listener. Two kinds of target group
are copied under the name `DEST_TG_PREFIX-<name>`. The first is the group named
by `Actions[0].TargetGroupArn` of each non-default rule whose first action
forwards (index.js:162-163). The second is the group named by the listener's
forward default action (index.js:232-234), and only the first mode copies the
listener. A forward action without a `TargetGroupArn`, such as one that splits
traffic between several groups, throws. A run-scoped list, `newTgs`, remembers
the groups already copied, so no name is created more than once per run.
Helpers
also copy a load balancer, one target group, or (deprecated) every target group
of a load balancer.

The model has six modules:

- `Wrappers`: `Option` and `Result`.
- `Arn`: JavaScript `split('/')` over `seq<char>` and the segment-1 extraction
  that reads a target-group name out of an ARN.
- `Records`: the service's records, as datatypes whose fields are `Option`s.
  A JavaScript `delete` becomes `None`. Attributes the tool never touches travel
  unchanged in an `Other` map. The module also holds the pure request-building
  transforms and the search `newTgs.find` performs.
- `FakeElb`: an in-memory stand-in for the control plane.
  - The class `ElbService` answers describes from fixed stores.
  - It records every create request in a ghost log per operation; the length of
    each log is the create counter. It also logs every target-group describe by
    name, so a contract can say how many describes an operation made.
  - A created target group carries the requested `Name` as its `TargetGroupName`.
  - `describeRules` pages by offset. It returns a `NextMarker` only while rules
    remain, and a missing marker means the first page.
- `Paging`: the rule-listing loop as a function of the store, with its
  termination behaviour proved.
- `ElbCopy`: the class `Migration` stands for the module instance. It holds the
  service, the destination prefix and the cache `NewTgs`.
  - `Valid()` states the deduplication invariant. Entry k of `NewTgs` is the
    group created from the k-th target-group create request of this run, the
    cache holds one entry per such request, and no name occurs twice in it.
    That request is the copy of the described source group whose name the ghost
    list `SourceNames` records.
  - Its methods are the functions of `index.js`, written as loops and in-place
    updates like the original.

Paging: the listing loop (index.js:145-152) reads `NextMarker` but never tests
it. It stops only on a page shorter than `PAGE_SIZE`, and the model does the
same.
`Paging.ListingNeverEndsOnFullLastPage` shows the consequence under the stand-in
service's marker rule. That rule gives no `NextMarker` after a full last page,
and it reads a missing marker as "the first page". Under it, when the number of
rules is a positive multiple of 10, the loop goes back to the first page, and no
bound on the number of calls lets it stop. The same holds for the real service
only if it also omits the marker there.
`Paging.MarkerListingCollectsAllRules` proves that the marker-following variant
would stop with every rule.

## Model

| member | source | states |
|---|---|---|
| Arn.Split | index.js:163 | `split('/')` yields one more part than there are separators, and no part contains the separator |
| Arn.JoinSplit | index.js:163 | joining the parts of a split with the separator gives back the string |
| Arn.SplitJoin | index.js:163 | splitting the join of separator-free parts gives back exactly those parts |
| Arn.TargetGroupNameOf | index.js:163 | `split('/')[1]` is undefined exactly when the ARN has no '/', and otherwise is a '/'-free segment |
| Arn.SecondSegment | index.js:234 | the name read from an ARN is exactly the text between its first and second '/' (or the end) |
| Records.PrefixedName | index.js:123 | `${prefix}-${name}` (also built at index.js:168 and index.js:237) is the prefix, then '-', then the name as a template literal renders it ("undefined" when absent) |
| Records.PrefixedNameInjective | index.js:123 | two `${prefix}-${name}` names are equal exactly when the interpolated names are |
| Records.TargetGroupRequest | index.js:121-126 | the request is named `prefix-` + the source's `TargetGroupName` (as interpolated); `TargetGroupName`, `TargetGroupArn` and `LoadBalancerArns` are removed; every other attribute is copied unchanged |
| Records.TargetGroupRequestDependsOnNameAndConfig | index.js:121-126 | two groups give the same request exactly when their interpolated names and remaining attributes agree |
| Records.RetargetForward | index.js:188-200 | the action keeps its type and other attributes, points at the new group and loses `ForwardConfig` |
| Records.StripMatchConfigs | index.js:192-198 | the condition loses `HostHeaderConfig` and `PathPatternConfig` and keeps everything else |
| Records.Qualifies | index.js:162 | only a rule whose `IsDefault` is exactly `false` is copied (an absent flag fails the strict comparison), and its first action forwards |
| Records.RuleRequest | index.js:181-201 | a rule without conditions throws a TypeError. Otherwise: `RuleArn` and `IsDefault` are removed, and `ListenerArn` becomes the destination. `Priority` is kept. `Actions[0]` is retargeted, `Conditions[0]` is stripped, and the other actions and conditions are unchanged |
| Records.RuleRequestIdempotent | index.js:181-201 | building the request again from a built request changes nothing |
| Records.SupportedDefaultAction | index.js:232-262 | forward, fixed-response and redirect are accepted; the authenticate action types fall through to the throw |
| Records.ListenerRequest | index.js:250-265 | a forward default action is retargeted and loses `ForwardConfig`; fixed-response and redirect actions are kept; `ListenerArn` is removed and `LoadBalancerArn` becomes the destination; other attributes are unchanged |
| Records.ListenerRequestIdempotent | index.js:250-265 | building the request again from a built request changes nothing |
| Records.LoadBalancerRequest | index.js:60-77 | a load balancer without zones throws. Otherwise `Subnets` holds each zone's `SubnetId` in order and `Name` is the new name. The eight service-assigned fields are removed, and the rest is unchanged |
| Records.LoadBalancerRequestDropsServerFields | index.js:60-77 | two load balancers with the same subnets and configuration give the same request, whatever the service assigned to them |
| Records.LoadBalancerRequestNotReusable | index.js:60-77 | a built request has no zones, so sending it through the transform again throws |
| Records.FindIndex | index.js:167-169 | `find` returns the first group with the name; none earlier has it, and none at all has it when nothing is found |
| Records.FindByName | index.js:236-238 | the search succeeds exactly when some group has the name, and what it finds has that name |
| Records.FindByNameAppend | index.js:175 | appending to the cache does not change what a successful search finds |
| Records.FindByNameAppendNew | index.js:244 | after a failed search, the appended group with that name is what the search finds |
| FakeElb.CreatedTargetGroup | index.js:128-129 | the created group's `TargetGroupName` is the requested `Name`, and it has an ARN |
| FakeElb.DescribeByName | index.js:119-120 | describing by name returns a group with that name or a not-found error |
| FakeElb.ElbService.DescribeLoadBalancer | index.js:56-60 | a known ARN answers with its load balancer and an unknown one with a not-found error; the call changes nothing, since it has no `modifies` |
| FakeElb.ElbService.DescribeTargetGroupsOf | index.js:92-93 | a known load balancer answers with its groups in store order, an unknown one with a not-found error; nothing changes |
| FakeElb.ElbService.DescribeListener | index.js:225-226 | a known listener ARN answers with its listener and an unknown one with a not-found error; nothing changes |
| FakeElb.ElbService.DescribeTargetGroup | index.js:119 | the answer is `DescribeByName` on the store, the name is appended to the describe log, and no create log changes |
| FakeElb.RulesResponse | index.js:146 | a page exists exactly for a known listener and never holds more than the page size |
| FakeElb.ElbService.DescribeRules | index.js:146 | the service's answer to a page request is `RulesResponse` on its rule store |
| FakeElb.ElbService.CreateTargetGroup | index.js:128 | the request is appended to the target-group log; the other logs are unchanged |
| FakeElb.ElbService.CreateRule | index.js:206 | the request is appended to the rule log; the other logs are unchanged |
| FakeElb.ElbService.CreateListener | index.js:266 | the request is appended to the listener log; the other logs are unchanged |
| FakeElb.ElbService.CreateLoadBalancer | index.js:79 | the request is appended to the load-balancer log; the other logs are unchanged |
| Paging.ListedRules | index.js:145-152 | the loop's outcome within a bound on calls: a result only for a known listener, and an unknown listener fails on the first call with not-found |
| Paging.PrependConcat | index.js:147 | concatenating pages one after another is the same as concatenating them at once |
| Paging.ListingCollectsAllRules | index.js:145-152 | when the rule count is not a positive multiple of 10, the loop stops after count/10 + 1 calls with every rule, in order |
| Paging.ListingNeverEndsOnFullLastPage | index.js:145-152 | when the rule count is a positive multiple of 10, no bound on the number of calls lets the loop stop |
| Paging.ListingStopsOnlyWithAllRules | index.js:145-152 | whenever the loop stops, the listener exists and the result is all of its rules, in order |
| Paging.MarkerListingCollectsAllRules | index.js:145-152 | a loop that also stopped on a missing marker would collect every rule for any rule count |
| ElbCopy.Qualifying | index.js:162 | the rules kept are rules of the listing, each a non-default rule whose first action forwards |
| ElbCopy.CreateKeepsNames | index.js:172-175 | creating a group under a name the cache lacks and appending it keeps the run's create requests and the cache in step, with pairwise distinct names |
| ElbCopy.CopyableGrow | index.js:175 | pushing groups onto the cache never makes a rule that could be copied before uncopyable |
| ElbCopy.CreateKeepsSources | index.js:119-128 | creating the copy of a described group extends, by that group's name, the record of which source each create request copies |
| ElbCopy.ListenerTargetGrow | index.js:175 | once the listener's group is in the cache, groups pushed later do not change the ARN the listener request points at |
| ElbCopy.RulesCopiedGrow | index.js:175 | groups appended to the cache do not change the request built for an earlier rule |
| ElbCopy.RulesOutcomeFrom | index.js:175 | the rule loop's success condition, met against a cache, is also met against any smaller cache it grew from |
| ElbCopy.RuleFailStep | index.js:162-207 | when rule i throws, the rule requests already sent still match the qualifying rules before it, and every new group is named after a qualifying rule among the first i+1 |
| ElbCopy.CopyableStep | index.js:156-212 | once rule i has been copied, the first i+1 rules are copyable against the grown cache |
| ElbCopy.DescribedOnlyNewTrans | index.js:119 | two stretches of the run that each describe only the source names they record compose into one |
| ElbCopy.QualifyingStep | index.js:156-162 | the qualifying rules of a prefix grow by the next rule exactly when it qualifies |
| ElbCopy.RuleCopyStep | index.js:162-207 | one created rule extends the in-order rule/request correspondence and keeps every new group named after a qualifying rule |
| ElbCopy.Migration.Valid | index.js:27 | the invariant on `newTgs`, which is pushed at index.js:175 and index.js:244: it holds one group per create request of the run, in order, each carrying the requested name; each request is the copy (`TargetGroupRequest`) of the group described under the recorded source name |
| ElbCopy.Migration.constructor | index.js:27 | a run starts with an empty cache and the invariant holds |
| ElbCopy.Migration.CreatesAtMostOncePerName | index.js:27 | under the invariant, no two target-group creates of the run request the same name |
| ElbCopy.Migration.SourcesCopiedAtMostOnce | index.js:166-176 | under the invariant, no source group name is recorded twice, so each source group is copied at most once per run |
| ElbCopy.Migration.DescribesAtMostOncePerName | index.js:119 | when a stretch of the run described exactly the source names it recorded, it described no name twice, so each source group is fetched at most once |
| ElbCopy.Migration.CreatedGroupsCopySources | index.js:121-129 | under the invariant, every group of the run is the created copy of a described source group, with its configuration, named `prefix-<source name>` |
| ElbCopy.Migration.CopyTargetGroup | index.js:118-130 | describes the group by name, exactly once. If that fails, the error comes back and nothing is created. Otherwise exactly the built request is created, and the result is named `prefix-name` |
| ElbCopy.Migration.FindOrCreate | index.js:166-179 | a cached `prefix-name` group has its ARN reused, with no describe, no create and the cache unchanged. Otherwise the name is described exactly once. On success exactly the copy request of the described group is created and its group is appended to the cache. A describe error is returned with the cache and create log unchanged. It succeeds exactly when the group is cached or describable. The invariant is kept |
| ElbCopy.Migration.ListAllRules | index.js:139-152 | the while loop returns exactly the fuel-bounded listing `ListedRules`, so the `Paging` lemmas apply to it |
| ElbCopy.Migration.CopyRule | index.js:157-212 | it succeeds exactly when the rule is copyable: it has actions, and if it qualifies it has conditions and its target group is cached or describable. A rule with no actions throws, and any other non-qualifying rule changes nothing. A qualifying rule without a `TargetGroupArn` throws a TypeError with nothing changed. A qualifying rule with one goes through find-or-create first, with its exact cache, create-log and describe-log outcome, whatever its conditions. If the group is neither cached nor describable, the describe error comes back. If the rule has no conditions, a TypeError comes back after the group was found or created. A successful qualifying rule gets exactly one rule create, built from the group the cache holds under its name |
| ElbCopy.Migration.CopyRuleInto | index.js:157-208 | one pass of the loop, with its push onto `dest_rules`, moves the loop facts from the first i rules to the first i+1, and succeeds exactly when rule i is copyable. A success describes exactly the source names it records. A failure sends no rule create; rule i is then not copyable against the grown cache, the requests sent so far still match the qualifying rules before it, and every new group is named after a qualifying rule among the first i+1 |
| ElbCopy.Migration.CopyRules | index.js:137-216 | a failed listing returns its error with nothing created. On success, the created rules and the rule requests correspond one to one, in order, with the qualifying rules of the listing. Every group created is named after one of them, and the invariant is kept. Success is tied to copyability in both directions: if each listed rule is copyable against the starting cache the copy succeeds, and a success implies each one is copyable (in particular has an action) against the final cache. A failure after a successful listing stops at a rule `failedAt`: every earlier rule is copyable, rule `failedAt` is not, the rule creates sent are exactly the copies of the qualifying rules before it, in order, and every new group is named after a qualifying rule up to and including it. A success describes exactly the source names it records, in order, so no group is fetched twice (`DescribesAtMostOncePerName`) |
| ElbCopy.Migration.CopyListener | index.js:223-268 | it succeeds exactly when the listener is copyable: it exists, has a default action of a supported type, and a forward action names a group that is cached or describable. An unknown listener or an unsupported type fails before any create. A forward action without a `TargetGroupArn` throws a TypeError with nothing changed. One with an ARN goes through find-or-create with its exact cache, create-log and describe-log outcome, and an unavailable group returns the describe error. Fixed-response and redirect are copied unchanged, with no describe, no target-group create and the cache unchanged; forward points at the cached group. A success makes exactly one listener create, on `destLbArn`, and the result is the listener created from it |
| ElbCopy.Migration.CopyListenerThenRules | index.js:31-33 | copying the listener and then its rules keeps the invariant, so each prefixed target-group name is created at most once. An uncopyable listener fails with no listener or rule created. A copyable listener creates exactly one listener, namely `ListenerRequest` of the source listener on `destLbArn`, pointing at the group the cache holds, and then the rules behave as in `CopyRules` on that listener's ARN: a failed listing returns its error with no rule created; a success copies the qualifying listed rules in order and every listed rule was copyable; a failure stops at the first uncopyable rule with exactly the earlier qualifying rules created; and only copyable rules make the run succeed. A success describes exactly the source names it records |
| ElbCopy.Migration.CopyLoadBalancer | index.js:55-82 | an unknown load balancer, or one without zones, creates nothing. Otherwise exactly `LoadBalancerRequest` is created, with the subnets collected by the loop. No target group is described or created |
| ElbCopy.Migration.CopyTargetGroups | index.js:91-109 | one create per group of the load balancer, in order; the requests and the created groups are returned side by side, as long as the input. The groups come from one listing, so no group is described by name |

## Left out

- SDK configuration, region, credentials, profile loading and the environment-variable defaults (index.js:3-24). This is setup of a foreign library.
- Logging with `console.log` and `console.error`. It is output only.
- The top-level promise chains and the choice between the two modes (index.js:29-46). `ElbCopy.Migration.CopyListenerThenRules` models the first mode's sequence. The second mode is a single `CopyRules` call.
- The real `elbv2` service. `FakeElb.ElbService` replaces it:
  - service-side failures other than "not found" are not modelled;
  - groups, listeners and load balancers created during a run are not added to the describe stores.
- Shallow-copy aliasing. `Object.assign` copies only the top level, so the built rule request shares `Actions[0]` and `Conditions[0]` with the source rule, and in `copyListener` the request is the described listener itself. The model has value semantics: only the request sent and the record returned are specified, and changes made through the shared objects are not.
- `ElbCopy.Migration.ListAllRules`: the `fuel` parameter bounds the number of describe calls. `Err(OutOfFuel)` stands for a loop that does not stop. It does not reflect any limit in the code.
- `ElbCopy.Migration.CopyRules`: the third argument at index.js:33 and index.js:41 is dropped. `copyRules` declares two parameters and reads the global `DEST_TG_PREFIX` instead, which is `DestTgPrefix` of the `Migration` object.
- `ElbCopy.Migration.CopyTargetGroups` keeps no `Valid()` contract. It creates groups outside the `newTgs` cache, and nothing in index.js calls it.
- `FakeElb.DescribeByName`: a describe with an undefined name fails with not-found. That is the case of an ARN without '/', where `split('/')[1]` is undefined. How the real service answers `Names: [undefined]` is not modelled. The at-most-once proof relies on this answer for such ARNs, because nothing is created for them.
- Concurrency and retries. The code awaits each call in turn and never retries.

=== FILE: arn.dfy ===
/**
 * Splitting an ARN on '/' as JavaScript's `String.prototype.split` does for a
 * one-character separator, and reading the target-group name from it.
 */
module Arn {
  import opened Wrappers

  /** Number of occurrences of `sep` in `s`. */
  function Count(s: string, sep: char): nat
  {
    if |s| == 0 then 0 else (if s[0] == sep then 1 else 0) + Count(s[1..], sep)
  }

  /** The parts written back with `sep` between them (`parts.join(sep)`). */
  function Join(parts: seq<string>, sep: char): string
    requires |parts| > 0
  {
    if |parts| == 1 then parts[0] else parts[0] + [sep] + Join(parts[1..], sep)
  }

  /**
   * `s.split(sep)`: the maximal runs of characters between separators, in
   * order; the empty string splits into one empty part.
   */
  function Split(s: string, sep: char): (parts: seq<string>)
    ensures |parts| == Count(s, sep) + 1
    ensures forall i :: 0 <= i < |parts| ==> sep !in parts[i]
    decreases |s|
  {
    if |s| == 0 then [""]
    else
      var rest := Split(s[1..], sep);
      if s[0] == sep then [""] + rest
      else [[s[0]] + rest[0]] + rest[1..]
  }

  /** Joining the parts with the separator gives back the string. */
  lemma {:induction false} JoinSplit(s: string, sep: char)
    ensures Join(Split(s, sep), sep) == s
    decreases |s|
  {
    if |s| > 0 {
      var rest := Split(s[1..], sep);
      JoinSplit(s[1..], sep);
      assert s == [s[0]] + s[1..];
      if s[0] != sep {
        var parts := [[s[0]] + rest[0]] + rest[1..];
        assert parts[1..] == rest[1..];
      }
    }
  }

  /** A run free of separators stays together in the first part. */
  lemma {:induction false} SplitFreePrefix(p: string, t: string, sep: char)
    requires sep !in p
    ensures Split(p + t, sep) == [p + Split(t, sep)[0]] + Split(t, sep)[1..]
    decreases |p|
  {
    if |p| > 0 {
      SplitFreePrefix(p[1..], t, sep);
      assert (p + t)[1..] == p[1..] + t;
      assert [p[0]] + (p[1..] + Split(t, sep)[0]) == p + Split(t, sep)[0];
    } else {
      assert p + t == t;
      assert p + Split(t, sep)[0] == Split(t, sep)[0];
      assert Split(t, sep) == [Split(t, sep)[0]] + Split(t, sep)[1..];
    }
  }

  /** Splitting undoes joining parts that contain no separator. */
  lemma {:induction false} SplitJoin(parts: seq<string>, sep: char)
    requires |parts| > 0
    requires forall i :: 0 <= i < |parts| ==> sep !in parts[i]
    ensures Split(Join(parts, sep), sep) == parts
    decreases |parts|
  {
    var p0 := parts[0];
    if |parts| == 1 {
      SplitFreePrefix(p0, "", sep);
      assert p0 + "" == p0;
      assert parts == [p0];
    } else {
      var rest := parts[1..];
      var tail := Join(rest, sep);
      var sepTail := [sep] + tail;
      assert Join(parts, sep) == p0 + sepTail;
      SplitJoin(rest, sep);
      assert sepTail[1..] == tail;
      assert Split(sepTail, sep) == [""] + rest;
      SplitFreePrefix(p0, sepTail, sep);
      assert p0 + "" == p0;
      assert parts == [p0] + rest;
    }
  }

  lemma {:induction false} CountZero(s: string, sep: char)
    ensures Count(s, sep) == 0 <==> sep !in s
    decreases |s|
  {
    if |s| > 0 {
      CountZero(s[1..], sep);
      assert s == [s[0]] + s[1..];
    }
  }

  /**
   * `arn.split('/')[1]`: the second '/'-separated segment, or `undefined`
   * (None) when the ARN has no '/'.
   */
  function TargetGroupNameOf(arn: string): (name: Option<string>)
    ensures name.None? <==> '/' !in arn
    ensures name.Some? ==> '/' !in name.value
  {
    CountZero(arn, '/');
    var parts := Split(arn, '/');
    if |parts| >= 2 then Some(parts[1]) else None
  }

  /**
   * The name read from an ARN is exactly the text between its first and its
   * second '/' (or the end of the ARN).
   */
  lemma SecondSegment(head: string, name: string, tail: seq<string>)
    requires '/' !in head && '/' !in name
    requires forall i :: 0 <= i < |tail| ==> '/' !in tail[i]
    ensures TargetGroupNameOf(Join([head, name] + tail, '/')) == Some(name)
  {
    var parts := [head, name] + tail;
    forall i | 0 <= i < |parts| ensures '/' !in parts[i] {
      if i >= 2 { assert parts[i] == tail[i - 2]; }
    }
    SplitJoin(parts, '/');
  }
}

=== FILE: elb_copy.dfy ===
/**
 * The copy utility itself (index.js): one `Migration` object stands for the
 * module instance, holding the service client, the destination target-group
 * prefix and the run-scoped list `newTgs` of target groups created so far.
 */
module ElbCopy {
  import opened Wrappers
  import opened Records
  import opened Arn
  import opened FakeElb
  import opened Paging

  function CachedNames(tgs: seq<TargetGroup>): (names: seq<Option<string>>)
    ensures |names| == |tgs| && forall i :: 0 <= i < |tgs| ==> names[i] == tgs[i].TargetGroupName
  {
    seq(|tgs|, i requires 0 <= i < |tgs| => tgs[i].TargetGroupName)
  }

  predicate Distinct<T(==)>(s: seq<T>)
  {
    forall i, j :: 0 <= i < j < |s| ==> s[i] != s[j]
  }

  /** The groups in `cache` are, in order, what the create requests from position `start` on produced. */
  ghost predicate CacheMatchesCreates(reqs: seq<TargetGroup>, start: nat, cache: seq<TargetGroup>)
  {
    && start + |cache| == |reqs|
    && forall k :: 0 <= k < |cache| ==> cache[k] == CreatedTargetGroup(reqs[start + k])
  }

  /**
   * From position `start` on, create request k copies the source group that
   * `names[k]` describes, renamed under `prefix`.
   */
  ghost predicate CreatesCopySources(reqs: seq<TargetGroup>, start: nat, groups: seq<TargetGroup>, prefix: string,
                                     names: seq<Option<string>>)
  {
    && start + |names| == |reqs|
    && forall k :: 0 <= k < |names| ==>
         && DescribeByName(groups, names[k]).Ok?
         && reqs[start + k] == TargetGroupRequest(DescribeByName(groups, names[k]).value, prefix)
  }

  /**
   * The outcome of find-or-create for `name` on the cache, the target-group
   * create log and the describe log: a cached `prefix-name` group is reused
   * with no call; otherwise `name` is described once and, if that succeeds,
   * exactly the copy request is created and its group appended to the cache.
   */
  ghost predicate FoundOrCopied(cache0: seq<TargetGroup>, cache: seq<TargetGroup>,
                                reqs0: seq<TargetGroup>, reqs: seq<TargetGroup>,
                                descs0: seq<Option<string>>, descs: seq<Option<string>>,
                                groups: seq<TargetGroup>, prefix: string, name: Option<string>)
  {
    var d := DescribeByName(groups, name);
    if FindByName(cache0, PrefixedName(prefix, name)).Some? then
      cache == cache0 && reqs == reqs0 && descs == descs0
    else if d.Err? then
      cache == cache0 && reqs == reqs0 && descs == descs0 + [name]
    else
      var req := TargetGroupRequest(d.value, prefix);
      cache == cache0 + [CreatedTargetGroup(req)] && reqs == reqs0 + [req] && descs == descs0 + [name]
  }

  /**
   * The target-group describes made between two states are exactly the source
   * names recorded in between, in order: every describe was followed by a copy.
   */
  ghost predicate DescribedOnlyNew(descs0: seq<Option<string>>, descs: seq<Option<string>>,
                                   names0: seq<Option<string>>, names: seq<Option<string>>)
  {
    names0 <= names && descs == descs0 + names[|names0|..]
  }

  lemma DescribedNothing(descs: seq<Option<string>>, names: seq<Option<string>>)
    ensures DescribedOnlyNew(descs, descs, names, names)
  {
  }

  lemma DescribedOnlyNewTrans(d0: seq<Option<string>>, d1: seq<Option<string>>, d2: seq<Option<string>>,
                              n0: seq<Option<string>>, n1: seq<Option<string>>, n2: seq<Option<string>>)
    requires DescribedOnlyNew(d0, d1, n0, n1) && DescribedOnlyNew(d1, d2, n1, n2)
    ensures DescribedOnlyNew(d0, d2, n0, n2)
  {
  }

  lemma DistinctSuffix<T>(s: seq<T>, k: nat)
    requires Distinct(s) && k <= |s|
    ensures Distinct(s[k..])
  {
  }

  /** The name a forward action's target group is looked up and copied under. */
  function ActionKey(prefix: string, a: Action): string
  {
    PrefixedName(prefix, match a.TargetGroupArn case Some(arn) => TargetGroupNameOf(arn) case None => None)
  }

  /** The rules `copyRules` reproduces, in source order. */
  function Qualifying(rules: seq<Rule>): (q: seq<Rule>)
    ensures forall r :: r in q ==> r in rules && Qualifies(r)
    ensures |q| <= |rules|
  {
    if |rules| == 0 then []
    else
      var last := rules[|rules| - 1];
      Qualifying(rules[..|rules| - 1]) + (if Qualifies(last) then [last] else [])
  }

  /** The group called `prefix-name` is cached, or the source group `name` can be described. */
  predicate GroupAvailable(cache: seq<TargetGroup>, groups: seq<TargetGroup>, prefix: string, name: Option<string>)
  {
    FindByName(cache, PrefixedName(prefix, name)).Some? || DescribeByName(groups, name).Ok?
  }

  /** A forward action names a target-group ARN whose group is available. */
  predicate ForwardTargetAvailable(cache: seq<TargetGroup>, groups: seq<TargetGroup>, prefix: string, a: Action)
  {
    a.TargetGroupArn.Some? && GroupAvailable(cache, groups, prefix, TargetGroupNameOf(a.TargetGroupArn.value))
  }

  /**
   * What one pass of the rule loop needs to get through without throwing: a
   * first action to inspect and, for a rule that is copied, a target group and
   * a first condition.
   */
  predicate RuleCopyable(cache: seq<TargetGroup>, groups: seq<TargetGroup>, prefix: string, rule: Rule)
  {
    && |rule.Actions| > 0
    && (Qualifies(rule) ==> |rule.Conditions| > 0 && ForwardTargetAvailable(cache, groups, prefix, rule.Actions[0]))
  }

  /** What `copyListener` needs to create the listener instead of throwing. */
  predicate ListenerCopyable(cache: seq<TargetGroup>, groups: seq<TargetGroup>, prefix: string,
                             listeners: map<string, Listener>, arn: string)
  {
    && arn in listeners
    && |listeners[arn].DefaultActions| > 0
    && SupportedDefaultAction(listeners[arn].DefaultActions[0].Type)
    && (listeners[arn].DefaultActions[0].Type == FORWARD ==>
          ForwardTargetAvailable(cache, groups, prefix, listeners[arn].DefaultActions[0]))
  }

  /** The ARN a copied listener's default action points at: the cached group for a forward action. */
  function ListenerTarget(cache: seq<TargetGroup>, prefix: string, src: Listener): (arn: Option<string>)
    ensures arn.Some? ==> |src.DefaultActions| > 0 && src.DefaultActions[0].Type == FORWARD
  {
    if |src.DefaultActions| > 0 && src.DefaultActions[0].Type == FORWARD then
      match FindByName(cache, ActionKey(prefix, src.DefaultActions[0]))
      case Some(g) => g.TargetGroupArn
      case None => None
    else None
  }

  /** Once the listener's group is cached, later appends do not move its target. */
  lemma ListenerTargetGrow(before: seq<TargetGroup>, after: seq<TargetGroup>, prefix: string, src: Listener)
    requires before <= after
    requires |src.DefaultActions| > 0 && src.DefaultActions[0].Type == FORWARD ==>
      FindByName(before, ActionKey(prefix, src.DefaultActions[0])).Some?
    ensures ListenerTarget(after, prefix, src) == ListenerTarget(before, prefix, src)
  {
  }

  /** A growing cache keeps every rule copyable that was copyable before. */
  lemma CopyableGrow(before: seq<TargetGroup>, after: seq<TargetGroup>, groups: seq<TargetGroup>, prefix: string,
                     rules: seq<Rule>)
    requires before <= after
    ensures forall j :: 0 <= j < |rules| && RuleCopyable(before, groups, prefix, rules[j]) ==>
              RuleCopyable(after, groups, prefix, rules[j])
  {
  }

  /** One more rule of the loop was copyable, and the cache only grew. */
  lemma CopyableStep(before: seq<TargetGroup>, after: seq<TargetGroup>, groups: seq<TargetGroup>, prefix: string,
                     rules: seq<Rule>, i: nat)
    requires before <= after && i < |rules|
    requires forall j :: 0 <= j < i ==> RuleCopyable(before, groups, prefix, rules[j])
    requires RuleCopyable(before, groups, prefix, rules[i])
    ensures forall j :: 0 <= j < i + 1 ==> RuleCopyable(after, groups, prefix, rules[j])
  {
  }

  /** Lookup names of the rules' target groups. */
  ghost function RuleKeys(prefix: string, rules: seq<Rule>): set<string>
  {
    if |rules| == 0 then {}
    else
      var last := rules[|rules| - 1];
      RuleKeys(prefix, rules[..|rules| - 1]) + (if |last.Actions| > 0 then {ActionKey(prefix, last.Actions[0])} else {})
  }

  /** `req` is the request built from `src` for the group that `cache` holds under its lookup name. */
  ghost predicate IsRuleCopy(cache: seq<TargetGroup>, prefix: string, src: Rule, req: Rule, destListenerArn: string)
  {
    && |src.Actions| > 0 && src.Actions[0].TargetGroupArn.Some?
    && var found := FindByName(cache, ActionKey(prefix, src.Actions[0]));
       found.Some? && RuleRequest(src, found.value.TargetGroupArn, destListenerArn) == Ok(req)
  }

  /** One request and one created rule per qualifying rule `q[j]`, in the same order. */
  ghost predicate RulesCopied(cache: seq<TargetGroup>, prefix: string, q: seq<Rule>, reqs: seq<Rule>,
                              dest: seq<Rule>, destListenerArn: string)
  {
    && |reqs| == |q| && |dest| == |q|
    && forall j :: 0 <= j < |q| ==>
         IsRuleCopy(cache, prefix, q[j], reqs[j], destListenerArn) && dest[j] == CreatedRule(reqs[j])
  }

  /** One request per qualifying rule `q[j]`, in the same order: `RulesCopied` without the created rules. */
  ghost predicate RequestsCopied(cache: seq<TargetGroup>, prefix: string, q: seq<Rule>, reqs: seq<Rule>,
                                 destListenerArn: string)
  {
    && |reqs| == |q|
    && forall j :: 0 <= j < |q| ==> IsRuleCopy(cache, prefix, q[j], reqs[j], destListenerArn)
  }

  /**
   * The rule loop stopped at `rules[i]`: every earlier rule was copyable, and
   * was copied if it qualifies; `rules[i]` is not copyable.
   */
  ghost predicate StoppedAt(cache: seq<TargetGroup>, groups: seq<TargetGroup>, prefix: string, rules: seq<Rule>,
                            i: nat, reqs: seq<Rule>, destListenerArn: string)
  {
    && i < |rules|
    && (forall j :: 0 <= j < i ==> RuleCopyable(cache, groups, prefix, rules[j]))
    && !RuleCopyable(cache, groups, prefix, rules[i])
    && RequestsCopied(cache, prefix, Qualifying(rules[..i]), reqs, destListenerArn)
  }

  /**
   * What the rule loop of `copyRules` achieves on the listing `listed`, from
   * cache `cache0` to `cache`, with `reqs` the rule creates it sent: a failed
   * listing creates nothing; a success copies every qualifying rule in order
   * and every listed rule was copyable; a failure stops at the first rule that
   * is not; and when every listed rule is copyable to begin with, it succeeds.
   */
  ghost predicate RulesOutcome(cache0: seq<TargetGroup>, cache: seq<TargetGroup>, groups: seq<TargetGroup>,
                               prefix: string, listed: Result<seq<Rule>, Error>, reqs: seq<Rule>,
                               destListenerArn: string, r: Result<seq<Rule>, Error>, failedAt: nat)
  {
    && (listed.Err? ==> r == Err(listed.error) && reqs == [])
    && (r.Ok? ==>
          && listed.Ok?
          && RulesCopied(cache, prefix, Qualifying(listed.value), reqs, r.value, destListenerArn)
          && forall j :: 0 <= j < |listed.value| ==> RuleCopyable(cache, groups, prefix, listed.value[j]))
    && (r.Err? && listed.Ok? ==> StoppedAt(cache, groups, prefix, listed.value, failedAt, reqs, destListenerArn))
    && (listed.Ok? && (forall j :: 0 <= j < |listed.value| ==> RuleCopyable(cache0, groups, prefix, listed.value[j]))
        ==> r.Ok?)
  }

  /** The success condition of the rule loop also holds measured from an earlier, smaller cache. */
  lemma RulesOutcomeFrom(cache0: seq<TargetGroup>, mid: seq<TargetGroup>, cache: seq<TargetGroup>,
                         groups: seq<TargetGroup>, prefix: string, listed: Result<seq<Rule>, Error>,
                         reqs: seq<Rule>, destListenerArn: string, r: Result<seq<Rule>, Error>, failedAt: nat)
    requires cache0 <= mid
    requires RulesOutcome(mid, cache, groups, prefix, listed, reqs, destListenerArn, r, failedAt)
    ensures RulesOutcome(cache0, cache, groups, prefix, listed, reqs, destListenerArn, r, failedAt)
  {
  }

  /** Groups appended to the cache leave the requests already sent pointing where they pointed. */
  lemma RequestsCopiedGrow(before: seq<TargetGroup>, after: seq<TargetGroup>, prefix: string, q: seq<Rule>,
                           reqs: seq<Rule>, dest: seq<Rule>, destListenerArn: string)
    requires before <= after
    requires RulesCopied(before, prefix, q, reqs, dest, destListenerArn)
    ensures RequestsCopied(after, prefix, q, reqs, destListenerArn)
  {
  }

  /** Groups appended to the cache leave earlier copies pointing where they pointed. */
  lemma RulesCopiedGrow(before: seq<TargetGroup>, after: seq<TargetGroup>, prefix: string, q: seq<Rule>,
                        reqs: seq<Rule>, dest: seq<Rule>, destListenerArn: string, src: Rule, req: Rule)
    requires before <= after
    requires RulesCopied(before, prefix, q, reqs, dest, destListenerArn)
    requires IsRuleCopy(after, prefix, src, req, destListenerArn)
    ensures RulesCopied(after, prefix, q + [src], reqs + [req], dest + [CreatedRule(req)], destListenerArn)
  {
    forall j | 0 <= j < |q| ensures IsRuleCopy(after, prefix, q[j], reqs[j], destListenerArn) {
      assert after == before + after[|before|..];
      FindByNameAppend(before, after[|before|..], ActionKey(prefix, q[j].Actions[0]));
    }
  }

  /** The cache either stayed as it was or gained one group called `key` that it lacked. */
  ghost predicate CacheStep(before: seq<TargetGroup>, after: seq<TargetGroup>, key: string)
  {
    || after == before
    || (&& FindByName(before, key).None?
        && |after| == |before| + 1 && after[..|before|] == before
        && after[|before|].TargetGroupName == Some(key))
  }

  /** Every group the cache gained since position `start` is named after a qualifying rule of `q`. */
  ghost predicate GroupsServeRules(cache: seq<TargetGroup>, start: nat, prefix: string, q: seq<Rule>)
  {
    forall k :: start <= k < |cache| ==>
      cache[k].TargetGroupName.Some? && cache[k].TargetGroupName.value in RuleKeys(prefix, q)
  }

  /** Qualifying rules accumulate one at a time, in order. */
  lemma QualifyingStep(rules: seq<Rule>, i: nat)
    requires i < |rules|
    ensures Qualifying(rules[..i + 1]) == Qualifying(rules[..i]) + (if Qualifies(rules[i]) then [rules[i]] else [])
  {
    assert rules[..i + 1][..i] == rules[..i];
    assert rules[..i + 1][i] == rules[i];
  }

  /** A group added for `src` is named after it, so the new groups still serve the qualifying rules. */
  lemma {:induction false} GroupsServeRulesStep(start: nat, before: seq<TargetGroup>, after: seq<TargetGroup>,
                                                prefix: string, q: seq<Rule>, src: Rule)
    requires |src.Actions| > 0
    requires CacheStep(before, after, ActionKey(prefix, src.Actions[0]))
    requires GroupsServeRules(before, start, prefix, q)
    ensures GroupsServeRules(after, start, prefix, q + [src])
  {
  }

  /**
   * One created rule keeps both loop facts of `copyRules`: every qualifying
   * rule so far has its request, and every new group is named after one of them.
   */
  lemma RuleCopyStep(start: nat, before: seq<TargetGroup>, after: seq<TargetGroup>, prefix: string,
                     q: seq<Rule>, reqs: seq<Rule>, dest: seq<Rule>, destListenerArn: string, src: Rule, req: Rule)
    requires Qualifies(src)
    requires CacheStep(before, after, ActionKey(prefix, src.Actions[0]))
    requires RulesCopied(before, prefix, q, reqs, dest, destListenerArn)
    requires GroupsServeRules(before, start, prefix, q)
    requires IsRuleCopy(after, prefix, src, req, destListenerArn)
    ensures RulesCopied(after, prefix, q + [src], reqs + [req], dest + [CreatedRule(req)], destListenerArn)
    ensures GroupsServeRules(after, start, prefix, q + [src])
  {
    assert before <= after by {
      if after != before {
        assert after[..|before|] == before;
      }
    }
    RulesCopiedGrow(before, after, prefix, q, reqs, dest, destListenerArn, src, req);
    GroupsServeRulesStep(start, before, after, prefix, q, src);
  }

  /**
   * A rule that throws leaves the loop facts of the rules before it, and a
   * group found or created for it is still named after a qualifying rule.
   */
  lemma RuleFailStep(start: nat, before: seq<TargetGroup>, after: seq<TargetGroup>, prefix: string,
                     rules: seq<Rule>, i: nat, reqs: seq<Rule>, dest: seq<Rule>, destListenerArn: string)
    requires i < |rules| && before <= after
    requires Qualifies(rules[i]) ==> CacheStep(before, after, ActionKey(prefix, rules[i].Actions[0]))
    requires !Qualifies(rules[i]) ==> after == before
    requires RulesCopied(before, prefix, Qualifying(rules[..i]), reqs, dest, destListenerArn)
    requires GroupsServeRules(before, start, prefix, Qualifying(rules[..i]))
    ensures RequestsCopied(after, prefix, Qualifying(rules[..i]), reqs, destListenerArn)
    ensures GroupsServeRules(after, start, prefix, Qualifying(rules[..i + 1]))
  {
    var q := Qualifying(rules[..i]);
    QualifyingStep(rules, i);
    RequestsCopiedGrow(before, after, prefix, q, reqs, dest, destListenerArn);
    if Qualifies(rules[i]) {
      GroupsServeRulesStep(start, before, after, prefix, q, rules[i]);
    } else {
      assert q + [] == q;
    }
  }

  /**
   * Creating a group under a name the cache lacks, and appending it, keeps the
   * run's create requests and the cache in step, with distinct names.
   */
  lemma CreateKeepsNames(reqs: seq<TargetGroup>, start: nat, cache: seq<TargetGroup>, req: TargetGroup,
                         tg: TargetGroup, key: string)
    requires CacheMatchesCreates(reqs, start, cache) && Distinct(CachedNames(cache))
    requires FindByName(cache, key).None?
    requires req.Name == Some(key) && tg == CreatedTargetGroup(req)
    ensures CacheMatchesCreates(reqs + [req], start, cache + [tg])
    ensures Distinct(CachedNames(cache + [tg]))
  {
  }

  /** Creating the copy of a described group extends the request/source correspondence by one. */
  lemma CreateKeepsSources(reqs: seq<TargetGroup>, start: nat, groups: seq<TargetGroup>, prefix: string,
                           names: seq<Option<string>>, name: Option<string>)
    requires CreatesCopySources(reqs, start, groups, prefix, names)
    requires DescribeByName(groups, name).Ok?
    ensures CreatesCopySources(reqs + [TargetGroupRequest(DescribeByName(groups, name).value, prefix)], start,
                               groups, prefix, names + [name])
  {
    var req := TargetGroupRequest(DescribeByName(groups, name).value, prefix);
    forall k | 0 <= k < |names| + 1
      ensures DescribeByName(groups, (names + [name])[k]).Ok?
      ensures (reqs + [req])[start + k] == TargetGroupRequest(DescribeByName(groups, (names + [name])[k]).value, prefix)
    {
      if k < |names| {
        assert (names + [name])[k] == names[k];
      }
    }
  }

  /** A log that grew by exactly one entry past `before + made` is `before + made` plus that entry. */
  lemma LogGrowsByOne<T>(log: seq<T>, before: seq<T>, made: seq<T>)
    requires |log| == |before + made| + 1 && log[..|before + made|] == before + made
    ensures log == before + made + [log[|before + made|]]
  {
  }

  /** Result of the deprecated bulk copy: the (rewritten) source groups and the created ones. */
  datatype CopiedGroups = CopiedGroups(oldTgs: seq<TargetGroup>, newTgs: seq<TargetGroup>)

  class Migration {
    const Elb: ElbService
    const DestTgPrefix: string
    /** `newTgs` (index.js:27): every target group this run created, in creation order. */
    var NewTgs: seq<TargetGroup>
    /** Number of target groups the service had been asked to create before this run. */
    ghost const CreatesBefore: nat
    /** For each entry of NewTgs, the source-group name it was copied from. */
    ghost var SourceNames: seq<Option<string>>

    /**
     * The entries of NewTgs are, in order, the groups created from the run's
     * target-group create requests, and no name occurs twice among them. Each
     * of those requests copies the source group named in SourceNames.
     */
    ghost predicate Valid()
      reads this, Elb
      ensures Valid() ==> CreatesBefore + |NewTgs| == |Elb.TargetGroupRequests|
      ensures Valid() ==> forall k :: 0 <= k < |NewTgs| ==>
                NewTgs[k].TargetGroupName == Elb.TargetGroupRequests[CreatesBefore + k].Name
    {
      && CacheMatchesCreates(Elb.TargetGroupRequests, CreatesBefore, NewTgs)
      && Distinct(CachedNames(NewTgs))
      && CreatesCopySources(Elb.TargetGroupRequests, CreatesBefore, Elb.TargetGroups, DestTgPrefix, SourceNames)
    }

    constructor (elb: ElbService, destTgPrefix: string)
      ensures Valid() && Elb == elb && DestTgPrefix == destTgPrefix && NewTgs == []
      ensures CreatesBefore == |elb.TargetGroupRequests|
    {
      Elb := elb;
      DestTgPrefix := destTgPrefix;
      NewTgs := [];
      CreatesBefore := |elb.TargetGroupRequests|;
      SourceNames := [];
    }

    /** Within a run, no target-group name is asked for twice. */
    lemma CreatesAtMostOncePerName()
      requires Valid()
      ensures forall i, j :: CreatesBefore <= i < j < |Elb.TargetGroupRequests| ==>
                Elb.TargetGroupRequests[i].Name != Elb.TargetGroupRequests[j].Name
    {
      var reqs := Elb.TargetGroupRequests;
      forall i, j | CreatesBefore <= i < j < |reqs| ensures reqs[i].Name != reqs[j].Name {
        assert NewTgs[i - CreatesBefore] == CreatedTargetGroup(reqs[i]);
        assert NewTgs[j - CreatesBefore] == CreatedTargetGroup(reqs[j]);
        assert CachedNames(NewTgs)[i - CreatesBefore] != CachedNames(NewTgs)[j - CreatesBefore];
      }
    }

    /**
     * Every group of the run is the copy of the source group it was described
     * from: the same configuration, named `prefix-name`.
     */
    lemma CreatedGroupsCopySources()
      requires Valid()
      ensures |SourceNames| == |NewTgs|
      ensures forall k :: 0 <= k < |NewTgs| ==>
        && DescribeByName(Elb.TargetGroups, SourceNames[k]).Ok?
        && NewTgs[k] == CreatedTargetGroup(TargetGroupRequest(DescribeByName(Elb.TargetGroups, SourceNames[k]).value,
                                                              DestTgPrefix))
        && NewTgs[k].TargetGroupName == Some(PrefixedName(DestTgPrefix, SourceNames[k]))
    {
    }

    /** Within a run, no source group is copied twice: the recorded source names are pairwise distinct. */
    lemma SourcesCopiedAtMostOnce()
      requires Valid()
      ensures Distinct(SourceNames)
    {
      CreatedGroupsCopySources();
      forall i, j | 0 <= i < j < |SourceNames| ensures SourceNames[i] != SourceNames[j] {
        assert CachedNames(NewTgs)[i] != CachedNames(NewTgs)[j];
      }
    }

    /**
     * Describes that were each followed by a copy name pairwise distinct
     * groups: within a run, no source group is fetched twice.
     */
    lemma DescribesAtMostOncePerName(descs0: seq<Option<string>>, names0: seq<Option<string>>)
      requires Valid()
      requires DescribedOnlyNew(descs0, Elb.TargetGroupDescribes, names0, SourceNames)
      ensures Distinct(Elb.TargetGroupDescribes[|descs0|..])
    {
      SourcesCopiedAtMostOnce();
      DistinctSuffix(SourceNames, |names0|);
      assert Elb.TargetGroupDescribes[|descs0|..] == SourceNames[|names0|..];
    }

    /** `copyTargetGroup` (index.js:118-130): describe the group by name, create a renamed copy. */
    method CopyTargetGroup(srcTgName: Option<string>, destTgPrefix: string) returns (r: Result<TargetGroup, Error>)
      modifies Elb
      ensures var d := DescribeByName(Elb.TargetGroups, srcTgName);
        if d.Ok? then
          && Elb.TargetGroupRequests == old(Elb.TargetGroupRequests) + [TargetGroupRequest(d.value, destTgPrefix)]
          && r == Ok(CreatedTargetGroup(TargetGroupRequest(d.value, destTgPrefix)))
        else
          r == Err(d.error) && Elb.TargetGroupRequests == old(Elb.TargetGroupRequests)
      ensures r.Ok? ==> srcTgName.Some? && r.value.TargetGroupName == Some(PrefixedName(destTgPrefix, srcTgName))
      ensures Elb.TargetGroupDescribes == old(Elb.TargetGroupDescribes) + [srcTgName]
      ensures Elb.RuleRequests == old(Elb.RuleRequests) && Elb.ListenerRequests == old(Elb.ListenerRequests)
      ensures Elb.LoadBalancerRequests == old(Elb.LoadBalancerRequests)
    {
      var described := Elb.DescribeTargetGroup(srcTgName);
      if described.Err? {
        return Err(described.error);
      }
      var newTgParam := TargetGroupRequest(described.value, destTgPrefix);
      var created := Elb.CreateTargetGroup(newTgParam);
      r := Ok(created);
    }

    /**
     * Find-or-create on `newTgs` (index.js:166-179, repeated at 235-248):
     * reuse the group already called `prefix-name`, or copy the source group
     * and append the copy.
     */
    method FindOrCreate(name: Option<string>) returns (r: Result<Option<string>, Error>)
      requires Valid()
      modifies this, Elb
      ensures Valid()
      ensures Elb.RuleRequests == old(Elb.RuleRequests) && Elb.ListenerRequests == old(Elb.ListenerRequests)
      ensures Elb.LoadBalancerRequests == old(Elb.LoadBalancerRequests)
      ensures FoundOrCopied(old(NewTgs), NewTgs, old(Elb.TargetGroupRequests), Elb.TargetGroupRequests,
                            old(Elb.TargetGroupDescribes), Elb.TargetGroupDescribes, Elb.TargetGroups, DestTgPrefix, name)
      ensures var key := PrefixedName(DestTgPrefix, name);
        var d := DescribeByName(Elb.TargetGroups, name);
        if FindByName(old(NewTgs), key).Some? then r == Ok(FindByName(old(NewTgs), key).value.TargetGroupArn)
        else if d.Err? then r == Err(d.error)
        else r == Ok(CreatedTargetGroup(TargetGroupRequest(d.value, DestTgPrefix)).TargetGroupArn)
      ensures r.Ok? <==> GroupAvailable(old(NewTgs), Elb.TargetGroups, DestTgPrefix, name)
      ensures old(SourceNames) <= SourceNames
      ensures r.Ok? ==>
        DescribedOnlyNew(old(Elb.TargetGroupDescribes), Elb.TargetGroupDescribes, old(SourceNames), SourceNames)
      ensures CacheStep(old(NewTgs), NewTgs, PrefixedName(DestTgPrefix, name))
      ensures r.Ok? ==>
        var found := FindByName(NewTgs, PrefixedName(DestTgPrefix, name));
        found.Some? && r.value == found.value.TargetGroupArn
    {
      var key := PrefixedName(DestTgPrefix, name);
      var existingTg := FindByName(NewTgs, key);
      if existingTg.None? {
        var newTg := CopyTargetGroup(name, DestTgPrefix);
        if newTg.Err? {
          return Err(newTg.error);
        }
        ghost var before := NewTgs;
        NewTgs := NewTgs + [newTg.value];
        CreateKeepsSources(old(Elb.TargetGroupRequests), CreatesBefore, Elb.TargetGroups, DestTgPrefix, SourceNames, name);
        SourceNames := SourceNames + [name];
        assert SourceNames[|old(SourceNames)|..] == [name];
        r := Ok(newTg.value.TargetGroupArn);
        FindByNameAppendNew(before, newTg.value, key);
        assert NewTgs[..|before|] == before;
        CreateKeepsNames(old(Elb.TargetGroupRequests), CreatesBefore, before, Elb.TargetGroupRequests[|Elb.TargetGroupRequests| - 1],
                         newTg.value, key);
      } else {
        r := Ok(existingTg.value.TargetGroupArn);
        DescribedNothing(Elb.TargetGroupDescribes, SourceNames);
      }
    }

    /**
     * The listing loop of `copyRules` (index.js:139-152): request pages and
     * concatenate them until a page holds fewer than PAGE_SIZE rules; `fuel`
     * bounds the number of requests.
     */
    method ListAllRules(srcListenerArn: string, fuel: nat) returns (r: Result<seq<Rule>, Error>)
      ensures r == ListedRules(Elb.RuleStore, srcListenerArn, None, fuel)
    {
      var hasMoreRule := true;
      var marker: Option<nat> := None;
      var srcRules: seq<Rule> := [];
      var calls: nat := 0;
      PrependConcat([], [], ListedRules(Elb.RuleStore, srcListenerArn, None, fuel));
      while hasMoreRule
        invariant calls <= fuel
        invariant hasMoreRule ==>
          ListedRules(Elb.RuleStore, srcListenerArn, None, fuel)
            == Prepend(srcRules, ListedRules(Elb.RuleStore, srcListenerArn, marker, fuel - calls))
        invariant !hasMoreRule ==> ListedRules(Elb.RuleStore, srcListenerArn, None, fuel) == Ok(srcRules)
        decreases fuel - calls
      {
        if calls == fuel {
          return Err(OutOfFuel);
        }
        var rulesRes := Elb.DescribeRules(srcListenerArn, PAGE_SIZE, marker);
        if rulesRes.Err? {
          return Err(rulesRes.error);
        }
        PrependConcat(srcRules, rulesRes.value.Rules,
                      ListedRules(Elb.RuleStore, srcListenerArn, rulesRes.value.NextMarker, fuel - calls - 1));
        calls := calls + 1;
        srcRules := srcRules + rulesRes.value.Rules;
        marker := rulesRes.value.NextMarker;
        if |rulesRes.value.Rules| < PAGE_SIZE {
          hasMoreRule := false;
        }
      }
      r := Ok(srcRules);
    }

    /**
     * One pass of the rule loop of `copyRules` (index.js:157-212): a
     * non-default forward rule gets its target group found or copied and is
     * created on the destination listener; any other rule is skipped.
     */
    method CopyRule(srcRule: Rule, destListenerArn: string) returns (r: Result<Option<Rule>, Error>)
      requires Valid()
      modifies this, Elb
      ensures Valid()
      ensures Elb.ListenerRequests == old(Elb.ListenerRequests)
      ensures Elb.LoadBalancerRequests == old(Elb.LoadBalancerRequests)
      ensures |srcRule.Actions| == 0 ==> r == Err(TypeError) && NewTgs == old(NewTgs) && unchanged(Elb)
      ensures |srcRule.Actions| > 0 && !Qualifies(srcRule) ==> r == Ok(None) && NewTgs == old(NewTgs) && unchanged(Elb)
      ensures Qualifies(srcRule) ==> CacheStep(old(NewTgs), NewTgs, ActionKey(DestTgPrefix, srcRule.Actions[0]))
      ensures r.Err? || r == Ok(None) ==> Elb.RuleRequests == old(Elb.RuleRequests)
      ensures r.Ok? && r.value.Some? ==>
        && Qualifies(srcRule)
        && |Elb.RuleRequests| == |old(Elb.RuleRequests)| + 1
        && Elb.RuleRequests[..|old(Elb.RuleRequests)|] == old(Elb.RuleRequests)
        && IsRuleCopy(NewTgs, DestTgPrefix, srcRule, Elb.RuleRequests[|old(Elb.RuleRequests)|], destListenerArn)
        && r.value.value == CreatedRule(Elb.RuleRequests[|old(Elb.RuleRequests)|])
      ensures Qualifies(srcRule) && r.Ok? ==> r.value.Some?
      ensures old(SourceNames) <= SourceNames
      ensures r.Ok? ==>
        DescribedOnlyNew(old(Elb.TargetGroupDescribes), Elb.TargetGroupDescribes, old(SourceNames), SourceNames)
      ensures r.Err? ==> !RuleCopyable(NewTgs, Elb.TargetGroups, DestTgPrefix, srcRule)
      ensures r.Ok? <==> RuleCopyable(old(NewTgs), Elb.TargetGroups, DestTgPrefix, srcRule)
      ensures Qualifies(srcRule) && srcRule.Actions[0].TargetGroupArn.None? ==>
        r == Err(TypeError) && NewTgs == old(NewTgs) && unchanged(Elb)
      ensures Qualifies(srcRule) && srcRule.Actions[0].TargetGroupArn.Some? ==>
        FoundOrCopied(old(NewTgs), NewTgs, old(Elb.TargetGroupRequests), Elb.TargetGroupRequests,
                      old(Elb.TargetGroupDescribes), Elb.TargetGroupDescribes, Elb.TargetGroups, DestTgPrefix,
                      TargetGroupNameOf(srcRule.Actions[0].TargetGroupArn.value))
      ensures Qualifies(srcRule) && srcRule.Actions[0].TargetGroupArn.Some? ==>
        var name := TargetGroupNameOf(srcRule.Actions[0].TargetGroupArn.value);
        && (!GroupAvailable(old(NewTgs), Elb.TargetGroups, DestTgPrefix, name) ==>
              && r == Err(DescribeByName(Elb.TargetGroups, name).error)
              && NewTgs == old(NewTgs) && Elb.TargetGroupRequests == old(Elb.TargetGroupRequests))
        && (GroupAvailable(old(NewTgs), Elb.TargetGroups, DestTgPrefix, name) && |srcRule.Conditions| == 0 ==>
              r == Err(TypeError))
    {
      if |srcRule.Actions| == 0 {
        return Err(TypeError);
      }
      if srcRule.Actions[0].Type == FORWARD && srcRule.IsDefault == Some(false) {
        if srcRule.Actions[0].TargetGroupArn.None? {
          return Err(TypeError);
        }
        var targetGroupName := TargetGroupNameOf(srcRule.Actions[0].TargetGroupArn.value);
        var destTargetGroupArn := FindOrCreate(targetGroupName);
        if destTargetGroupArn.Err? {
          return Err(destTargetGroupArn.error);
        }
        var newRuleParam := RuleRequest(srcRule, destTargetGroupArn.value, destListenerArn);
        if newRuleParam.Err? {
          return Err(newRuleParam.error);
        }
        var created := Elb.CreateRule(newRuleParam.value);
        r := Ok(Some(created));
      } else {
        r := Ok(None);
        DescribedNothing(Elb.TargetGroupDescribes, SourceNames);
      }
    }

    /**
     * `copyRules` (index.js:137-216): list every rule of the source listener,
     * then, in order, copy the target group of each non-default forward rule
     * (once per name) and create the rule on the destination listener.
     */
    method CopyRules(srcListenerArn: string, destListenerArn: string, fuel: nat)
      returns (r: Result<seq<Rule>, Error>, ghost failedAt: nat)
      requires Valid()
      modifies this, Elb
      ensures Valid()
      ensures old(NewTgs) <= NewTgs
      ensures Elb.ListenerRequests == old(Elb.ListenerRequests)
      ensures Elb.LoadBalancerRequests == old(Elb.LoadBalancerRequests)
      ensures old(Elb.RuleRequests) <= Elb.RuleRequests
      ensures var listed := ListedRules(Elb.RuleStore, srcListenerArn, None, fuel);
        listed.Err? ==> r == Err(listed.error) && NewTgs == old(NewTgs) && unchanged(Elb)
      ensures RulesOutcome(old(NewTgs), NewTgs, Elb.TargetGroups, DestTgPrefix,
                           ListedRules(Elb.RuleStore, srcListenerArn, None, fuel),
                           Elb.RuleRequests[|old(Elb.RuleRequests)|..], destListenerArn, r, failedAt)
      ensures var listed := ListedRules(Elb.RuleStore, srcListenerArn, None, fuel);
        && (r.Ok? ==> GroupsServeRules(NewTgs, |old(NewTgs)|, DestTgPrefix, Qualifying(listed.value)))
        && (r.Err? && listed.Ok? ==>
              && failedAt < |listed.value|
              && GroupsServeRules(NewTgs, |old(NewTgs)|, DestTgPrefix, Qualifying(listed.value[..failedAt + 1])))
      ensures old(SourceNames) <= SourceNames
      ensures r.Ok? ==>
        DescribedOnlyNew(old(Elb.TargetGroupDescribes), Elb.TargetGroupDescribes, old(SourceNames), SourceNames)
    {
      failedAt := 0;
      var listed := ListAllRules(srcListenerArn, fuel);
      if listed.Err? {
        return Err(listed.error), failedAt;
      }
      var srcRules := listed.value;
      var destRules: seq<Rule> := [];
      ghost var reqs: seq<Rule> := [];
      DescribedNothing(Elb.TargetGroupDescribes, SourceNames);
      for i := 0 to |srcRules|
        invariant Valid()
        invariant old(NewTgs) <= NewTgs
        invariant Elb.ListenerRequests == old(Elb.ListenerRequests)
        invariant Elb.LoadBalancerRequests == old(Elb.LoadBalancerRequests)
        invariant Elb.RuleRequests == old(Elb.RuleRequests) + reqs
        invariant RulesCopied(NewTgs, DestTgPrefix, Qualifying(srcRules[..i]), reqs, destRules, destListenerArn)
        invariant GroupsServeRules(NewTgs, |old(NewTgs)|, DestTgPrefix, Qualifying(srcRules[..i]))
        invariant forall j :: 0 <= j < |srcRules| && RuleCopyable(old(NewTgs), Elb.TargetGroups, DestTgPrefix, srcRules[j]) ==>
          RuleCopyable(NewTgs, Elb.TargetGroups, DestTgPrefix, srcRules[j])
        invariant forall j :: 0 <= j < i ==> RuleCopyable(NewTgs, Elb.TargetGroups, DestTgPrefix, srcRules[j])
        invariant DescribedOnlyNew(old(Elb.TargetGroupDescribes), Elb.TargetGroupDescribes, old(SourceNames), SourceNames)
      {
        ghost var before := NewTgs;
        ghost var descsBefore := Elb.TargetGroupDescribes;
        ghost var namesBefore := SourceNames;
        var step;
        step, reqs := CopyRuleInto(srcRules, i, destRules, destListenerArn, reqs, |old(NewTgs)|, old(Elb.RuleRequests));
        CopyableGrow(before, NewTgs, Elb.TargetGroups, DestTgPrefix, srcRules);
        if step.Err? {
          assert Elb.RuleRequests[|old(Elb.RuleRequests)|..] == reqs;
          failedAt := i;
          return Err(step.error), failedAt;
        }
        CopyableStep(before, NewTgs, Elb.TargetGroups, DestTgPrefix, srcRules, i);
        DescribedOnlyNewTrans(old(Elb.TargetGroupDescribes), descsBefore, Elb.TargetGroupDescribes,
                              old(SourceNames), namesBefore, SourceNames);
        destRules := step.value;
      }
      assert srcRules[..|srcRules|] == srcRules;
      r := Ok(destRules);
    }

    /**
     * One pass of the rule loop of `copyRules` together with its
     * `dest_rules.push` (index.js:157-208): the rules copied so far, `dest`,
     * grow by the rule created for `srcRules[i]`, if any, and the loop facts
     * move from `srcRules[..i]` to `srcRules[..i + 1]`.
     */
    method CopyRuleInto(srcRules: seq<Rule>, i: nat, dest: seq<Rule>, destListenerArn: string,
                        ghost reqs: seq<Rule>, ghost start: nat, ghost reqsBefore: seq<Rule>)
      returns (r: Result<seq<Rule>, Error>, ghost reqs': seq<Rule>)
      requires Valid()
      requires i < |srcRules| && start <= |NewTgs|
      requires Elb.RuleRequests == reqsBefore + reqs
      requires RulesCopied(NewTgs, DestTgPrefix, Qualifying(srcRules[..i]), reqs, dest, destListenerArn)
      requires GroupsServeRules(NewTgs, start, DestTgPrefix, Qualifying(srcRules[..i]))
      modifies this, Elb
      ensures Valid()
      ensures old(NewTgs) <= NewTgs
      ensures Elb.ListenerRequests == old(Elb.ListenerRequests)
      ensures Elb.LoadBalancerRequests == old(Elb.LoadBalancerRequests)
      ensures r.Err? ==> Elb.RuleRequests == old(Elb.RuleRequests)
      ensures r.Ok? ==>
        && Elb.RuleRequests == reqsBefore + reqs'
        && RulesCopied(NewTgs, DestTgPrefix, Qualifying(srcRules[..i + 1]), reqs', r.value, destListenerArn)
        && GroupsServeRules(NewTgs, start, DestTgPrefix, Qualifying(srcRules[..i + 1]))
      ensures r.Ok? <==> RuleCopyable(old(NewTgs), Elb.TargetGroups, DestTgPrefix, srcRules[i])
      ensures old(SourceNames) <= SourceNames
      ensures r.Ok? ==>
        DescribedOnlyNew(old(Elb.TargetGroupDescribes), Elb.TargetGroupDescribes, old(SourceNames), SourceNames)
      ensures r.Err? ==>
        && reqs' == reqs
        && !RuleCopyable(NewTgs, Elb.TargetGroups, DestTgPrefix, srcRules[i])
        && RequestsCopied(NewTgs, DestTgPrefix, Qualifying(srcRules[..i]), reqs, destListenerArn)
        && GroupsServeRules(NewTgs, start, DestTgPrefix, Qualifying(srcRules[..i + 1]))
    {
      var srcRule := srcRules[i];
      ghost var q := Qualifying(srcRules[..i]);
      ghost var before := NewTgs;
      QualifyingStep(srcRules, i);
      reqs' := reqs;
      ghost var logBefore := Elb.RuleRequests;
      var created := CopyRule(srcRule, destListenerArn);
      if created.Err? {
        RuleFailStep(start, before, NewTgs, DestTgPrefix, srcRules, i, reqs, dest, destListenerArn);
        return Err(created.error), reqs';
      }
      if created.value.Some? {
        var req := Elb.RuleRequests[|logBefore|];
        LogGrowsByOne(Elb.RuleRequests, reqsBefore, reqs);
        RuleCopyStep(start, before, NewTgs, DestTgPrefix, q, reqs, dest, destListenerArn, srcRule, req);
        assert Qualifying(srcRules[..i + 1]) == q + [srcRule];
        r := Ok(dest + [created.value.value]);
        reqs' := reqs + [req];
      } else {
        assert !Qualifies(srcRule) && NewTgs == before;
        assert Qualifying(srcRules[..i + 1]) == q;
        r := Ok(dest);
      }
    }

    /**
     * `copyListener` (index.js:223-268): copy the source listener onto the
     * destination load balancer; a forward default action first gets its
     * target group found or copied, and an unsupported type throws before
     * anything is created.
     */
    method CopyListener(srcListenerArn: string, destLbArn: string) returns (r: Result<Listener, Error>)
      requires Valid()
      modifies this, Elb
      ensures Valid()
      ensures Elb.RuleRequests == old(Elb.RuleRequests)
      ensures Elb.LoadBalancerRequests == old(Elb.LoadBalancerRequests)
      ensures r.Err? ==> Elb.ListenerRequests == old(Elb.ListenerRequests)
      ensures srcListenerArn !in Elb.Listeners ==>
        r == Err(NotFound("Listener")) && NewTgs == old(NewTgs) && unchanged(Elb)
      ensures srcListenerArn in Elb.Listeners && |Elb.Listeners[srcListenerArn].DefaultActions| == 0 ==>
        r == Err(TypeError) && NewTgs == old(NewTgs) && unchanged(Elb)
      ensures srcListenerArn in Elb.Listeners && |Elb.Listeners[srcListenerArn].DefaultActions| > 0 ==>
        var src := Elb.Listeners[srcListenerArn];
        var actionType := src.DefaultActions[0].Type;
        && (!SupportedDefaultAction(actionType) ==>
              r == Err(UnsupportedDefaultAction(actionType)) && NewTgs == old(NewTgs) && unchanged(Elb))
        && (SupportedDefaultAction(actionType) && actionType != FORWARD ==>
              && NewTgs == old(NewTgs) && Elb.TargetGroupRequests == old(Elb.TargetGroupRequests)
              && Elb.TargetGroupDescribes == old(Elb.TargetGroupDescribes)
              && Elb.ListenerRequests == old(Elb.ListenerRequests) + [ListenerRequest(src, None, destLbArn)]
              && r == Ok(CreatedListener(ListenerRequest(src, None, destLbArn))))
        && (actionType == FORWARD ==>
              var key := ActionKey(DestTgPrefix, src.DefaultActions[0]);
              && CacheStep(old(NewTgs), NewTgs, key)
              && (r.Ok? ==>
                    && src.DefaultActions[0].TargetGroupArn.Some?
                    && FindByName(NewTgs, key).Some?
                    && var req := ListenerRequest(src, FindByName(NewTgs, key).value.TargetGroupArn, destLbArn);
                       Elb.ListenerRequests == old(Elb.ListenerRequests) + [req] && r == Ok(CreatedListener(req))))
      ensures old(NewTgs) <= NewTgs
      ensures old(SourceNames) <= SourceNames
      ensures r.Ok? ==>
        DescribedOnlyNew(old(Elb.TargetGroupDescribes), Elb.TargetGroupDescribes, old(SourceNames), SourceNames)
      ensures r.Ok? <==> ListenerCopyable(old(NewTgs), Elb.TargetGroups, DestTgPrefix, Elb.Listeners, srcListenerArn)
      ensures r.Ok? ==>
        && |Elb.ListenerRequests| == |old(Elb.ListenerRequests)| + 1
        && Elb.ListenerRequests[..|old(Elb.ListenerRequests)|] == old(Elb.ListenerRequests)
        && r.value == CreatedListener(Elb.ListenerRequests[|old(Elb.ListenerRequests)|])
      ensures srcListenerArn in Elb.Listeners && |Elb.Listeners[srcListenerArn].DefaultActions| > 0
              && Elb.Listeners[srcListenerArn].DefaultActions[0].Type == FORWARD ==>
        var a := Elb.Listeners[srcListenerArn].DefaultActions[0];
        && (a.TargetGroupArn.None? ==> r == Err(TypeError) && NewTgs == old(NewTgs) && unchanged(Elb))
        && (a.TargetGroupArn.Some? ==>
              FoundOrCopied(old(NewTgs), NewTgs, old(Elb.TargetGroupRequests), Elb.TargetGroupRequests,
                            old(Elb.TargetGroupDescribes), Elb.TargetGroupDescribes, Elb.TargetGroups, DestTgPrefix,
                            TargetGroupNameOf(a.TargetGroupArn.value)))
        && (a.TargetGroupArn.Some? && !GroupAvailable(old(NewTgs), Elb.TargetGroups, DestTgPrefix,
                                                      TargetGroupNameOf(a.TargetGroupArn.value)) ==>
              && r == Err(DescribeByName(Elb.TargetGroups, TargetGroupNameOf(a.TargetGroupArn.value)).error)
              && NewTgs == old(NewTgs) && Elb.TargetGroupRequests == old(Elb.TargetGroupRequests))
    {
      var listenersRes := Elb.DescribeListener(srcListenerArn);
      if listenersRes.Err? {
        return Err(listenersRes.error);
      }
      var listener := listenersRes.value;
      if |listener.DefaultActions| == 0 {
        return Err(TypeError);
      }
      var destTargetGroupArn: Option<string> := None;
      if listener.DefaultActions[0].Type == FORWARD {
        if listener.DefaultActions[0].TargetGroupArn.None? {
          return Err(TypeError);
        }
        var targetGroupName := TargetGroupNameOf(listener.DefaultActions[0].TargetGroupArn.value);
        var found := FindOrCreate(targetGroupName);
        if found.Err? {
          return Err(found.error);
        }
        destTargetGroupArn := found.value;
      } else if listener.DefaultActions[0].Type == FIXED_RESPONSE {
        DescribedNothing(Elb.TargetGroupDescribes, SourceNames);
      } else if listener.DefaultActions[0].Type == REDIRECT {
        DescribedNothing(Elb.TargetGroupDescribes, SourceNames);
      } else {
        return Err(UnsupportedDefaultAction(listener.DefaultActions[0].Type));
      }
      var newListenerParam := ListenerRequest(listener, destTargetGroupArn, destLbArn);
      var created := Elb.CreateListener(newListenerParam);
      r := Ok(created);
    }

    /**
     * Option 1 of the entry point (index.js:31-33): copy the listener, then
     * copy the rules onto the listener just created.
     */
    method CopyListenerThenRules(srcListenerArn: string, destLbArn: string, fuel: nat)
      returns (r: Result<seq<Rule>, Error>, ghost failedAt: nat)
      requires Valid()
      modifies this, Elb
      ensures Valid()
      ensures forall i, j :: CreatesBefore <= i < j < |Elb.TargetGroupRequests| ==>
                Elb.TargetGroupRequests[i].Name != Elb.TargetGroupRequests[j].Name
      ensures Elb.ListenerRequests == old(Elb.ListenerRequests)
           || |Elb.ListenerRequests| == |old(Elb.ListenerRequests)| + 1
      ensures old(Elb.RuleRequests) <= Elb.RuleRequests
      ensures !ListenerCopyable(old(NewTgs), Elb.TargetGroups, DestTgPrefix, Elb.Listeners, srcListenerArn) ==>
        && r.Err?
        && Elb.ListenerRequests == old(Elb.ListenerRequests) && Elb.RuleRequests == old(Elb.RuleRequests)
      ensures ListenerCopyable(old(NewTgs), Elb.TargetGroups, DestTgPrefix, Elb.Listeners, srcListenerArn) ==>
        && |Elb.ListenerRequests| == |old(Elb.ListenerRequests)| + 1
        && (var src := Elb.Listeners[srcListenerArn];
            Elb.ListenerRequests[|old(Elb.ListenerRequests)|]
              == ListenerRequest(src, ListenerTarget(NewTgs, DestTgPrefix, src), destLbArn))
        && RulesOutcome(old(NewTgs), NewTgs, Elb.TargetGroups, DestTgPrefix,
                        ListedRules(Elb.RuleStore, srcListenerArn, None, fuel),
                        Elb.RuleRequests[|old(Elb.RuleRequests)|..],
                        CreatedListener(Elb.ListenerRequests[|old(Elb.ListenerRequests)|]).ListenerArn.value,
                        r, failedAt)
      ensures r.Ok? ==> ListenerCopyable(old(NewTgs), Elb.TargetGroups, DestTgPrefix, Elb.Listeners, srcListenerArn)
      ensures r.Ok? ==>
        DescribedOnlyNew(old(Elb.TargetGroupDescribes), Elb.TargetGroupDescribes, old(SourceNames), SourceNames)
    {
      failedAt := 0;
      var listener := CopyListener(srcListenerArn, destLbArn);
      if listener.Err? {
        CreatesAtMostOncePerName();
        return Err(listener.error), failedAt;
      }
      ghost var mid := NewTgs;
      ghost var src := Elb.Listeners[srcListenerArn];
      assert Elb.ListenerRequests[|old(Elb.ListenerRequests)|]
        == ListenerRequest(src, ListenerTarget(mid, DestTgPrefix, src), destLbArn);
      ghost var descsMid := Elb.TargetGroupDescribes;
      ghost var namesMid := SourceNames;
      r, failedAt := CopyRules(srcListenerArn, listener.value.ListenerArn.value, fuel);
      ListenerTargetGrow(mid, NewTgs, DestTgPrefix, src);
      RulesOutcomeFrom(old(NewTgs), mid, NewTgs, Elb.TargetGroups, DestTgPrefix,
                       ListedRules(Elb.RuleStore, srcListenerArn, None, fuel),
                       Elb.RuleRequests[|old(Elb.RuleRequests)|..], listener.value.ListenerArn.value, r, failedAt);
      CreatesAtMostOncePerName();
      if r.Ok? {
        DescribedOnlyNewTrans(old(Elb.TargetGroupDescribes), descsMid, Elb.TargetGroupDescribes,
                              old(SourceNames), namesMid, SourceNames);
      }
    }

    /**
     * `copyLoadBalancer` (index.js:55-82): describe the source load balancer,
     * collect the subnet of each of its zones, strip what the service assigned
     * and create the copy under `destLbName`.
     */
    method CopyLoadBalancer(srcLbArn: string, destLbName: string) returns (r: Result<LoadBalancer, Error>)
      modifies Elb
      ensures Elb.TargetGroupRequests == old(Elb.TargetGroupRequests) && Elb.RuleRequests == old(Elb.RuleRequests)
      ensures Elb.ListenerRequests == old(Elb.ListenerRequests)
      ensures Elb.TargetGroupDescribes == old(Elb.TargetGroupDescribes)
      ensures srcLbArn !in Elb.LoadBalancers ==> r == Err(NotFound("LoadBalancer")) && unchanged(Elb)
      ensures srcLbArn in Elb.LoadBalancers ==>
        var req := LoadBalancerRequest(Elb.LoadBalancers[srcLbArn], destLbName);
        && (req.Err? ==> r == Err(req.error) && unchanged(Elb))
        && (req.Ok? ==>
              Elb.LoadBalancerRequests == old(Elb.LoadBalancerRequests) + [req.value]
              && r == Ok(CreatedLoadBalancer(req.value)))
    {
      var lbRes := Elb.DescribeLoadBalancer(srcLbArn);
      if lbRes.Err? {
        return Err(lbRes.error);
      }
      var lb := lbRes.value;
      if lb.AvailabilityZones.None? {
        return Err(TypeError);
      }
      var azs := lb.AvailabilityZones.value;
      var subnets: seq<string> := [];
      for i := 0 to |azs|
        invariant |subnets| == i
        invariant forall j :: 0 <= j < i ==> subnets[j] == azs[j].SubnetId
      {
        subnets := subnets + [azs[i].SubnetId];
      }
      lb := lb.(Subnets := Some(subnets));
      lb := lb.(Name := Some(destLbName));
      lb := lb.(AvailabilityZones := None, CanonicalHostedZoneId := None, CreatedTime := None, DNSName := None);
      lb := lb.(LoadBalancerArn := None, LoadBalancerName := None, VpcId := None, State := None);
      assert subnets == SubnetIds(azs);
      var created := Elb.CreateLoadBalancer(lb);
      r := Ok(created);
    }

    /**
     * Deprecated `copyTargetGroups` (index.js:91-109): copy every group of a
     * load balancer, in order. The source groups are rewritten in place, so
     * `oldTgs` holds the requests that were sent. It bypasses `newTgs`.
     */
    method CopyTargetGroups(srcLbArn: string, newTgPrefix: string) returns (r: Result<CopiedGroups, Error>)
      modifies Elb
      ensures Elb.RuleRequests == old(Elb.RuleRequests) && Elb.ListenerRequests == old(Elb.ListenerRequests)
      ensures Elb.LoadBalancerRequests == old(Elb.LoadBalancerRequests)
      ensures Elb.TargetGroupDescribes == old(Elb.TargetGroupDescribes)
      ensures srcLbArn !in Elb.LoadBalancers ==> r == Err(NotFound("LoadBalancer")) && unchanged(Elb)
      ensures srcLbArn in Elb.LoadBalancers ==>
        var groups := GroupsOf(Elb.TargetGroups, srcLbArn);
        && r.Ok?
        && |r.value.oldTgs| == |groups| && |r.value.newTgs| == |groups|
        && Elb.TargetGroupRequests == old(Elb.TargetGroupRequests) + r.value.oldTgs
        && forall i :: 0 <= i < |groups| ==>
             && r.value.oldTgs[i] == TargetGroupRequest(groups[i], newTgPrefix)
             && r.value.newTgs[i] == CreatedTargetGroup(r.value.oldTgs[i])
    {
      var tgsRes := Elb.DescribeTargetGroupsOf(srcLbArn);
      if tgsRes.Err? {
        return Err(tgsRes.error);
      }
      var tgs := tgsRes.value;
      var sent: seq<TargetGroup> := [];
      var newTgs: seq<TargetGroup> := [];
      for i := 0 to |tgs|
        invariant |sent| == i && |newTgs| == i
        invariant Elb.TargetGroupRequests == old(Elb.TargetGroupRequests) + sent
        invariant Elb.RuleRequests == old(Elb.RuleRequests) && Elb.ListenerRequests == old(Elb.ListenerRequests)
        invariant Elb.LoadBalancerRequests == old(Elb.LoadBalancerRequests)
        invariant Elb.TargetGroupDescribes == old(Elb.TargetGroupDescribes)
        invariant forall j :: 0 <= j < i ==>
          sent[j] == TargetGroupRequest(tgs[j], newTgPrefix) && newTgs[j] == CreatedTargetGroup(sent[j])
      {
        var tg := TargetGroupRequest(tgs[i], newTgPrefix);
        var created := Elb.CreateTargetGroup(tg);
        sent := sent + [tg];
        newTgs := newTgs + [created];
      }
      r := Ok(CopiedGroups(sent, newTgs));
    }
  }
}

=== FILE: fake_elb.dfy ===
/**
 * An in-memory stand-in for the load-balancing control plane. It answers
 * describes from fixed stores and records every create request in ghost logs,
 * whose lengths are the per-operation create counters; target-group describes
 * by name are logged too.
 */
module FakeElb {
  import opened Wrappers
  import opened Records

  const ARN_PREFIX := "arn:aws:elasticloadbalancing:fake:000000000000:"

  /** The group the service creates from a request: it is named as requested. */
  function CreatedTargetGroup(req: TargetGroup): (tg: TargetGroup)
    ensures tg.TargetGroupName == req.Name && tg.TargetGroupArn.Some? && tg.Other == req.Other
  {
    req.(Name := None, TargetGroupName := req.Name,
         TargetGroupArn := Some(ARN_PREFIX + "targetgroup/" + Interpolated(req.Name) + "/0"),
         LoadBalancerArns := Some([]))
  }

  function CreatedRule(req: Rule): (rule: Rule)
    ensures rule.RuleArn.Some? && rule.Actions == req.Actions && rule.Conditions == req.Conditions
  {
    req.(RuleArn := Some(ARN_PREFIX + "listener-rule/" + Interpolated(req.Priority)),
         IsDefault := Some(false))
  }

  function CreatedListener(req: Listener): (l: Listener)
    ensures l.ListenerArn.Some? && l.DefaultActions == req.DefaultActions
  {
    req.(ListenerArn := Some(ARN_PREFIX + "listener/" + Interpolated(req.LoadBalancerArn)))
  }

  function CreatedLoadBalancer(req: LoadBalancer): (lb: LoadBalancer)
    ensures lb.LoadBalancerName == req.Name && lb.LoadBalancerArn.Some?
  {
    req.(LoadBalancerArn := Some(ARN_PREFIX + "loadbalancer/" + Interpolated(req.Name)),
         LoadBalancerName := req.Name, Name := None)
  }

  /** `describeTargetGroups({ Names: [name] })`: the group called `name`. */
  function DescribeByName(groups: seq<TargetGroup>, name: Option<string>): (r: Result<TargetGroup, Error>)
    ensures r.Ok? ==> r.value.TargetGroupName == name
  {
    if name.Some? && FindByName(groups, name.value).Some? then Ok(FindByName(groups, name.value).value)
    else Err(NotFound("TargetGroup"))
  }

  /** The groups attached to a load balancer, in store order. */
  function GroupsOf(groups: seq<TargetGroup>, lbArn: string): (r: seq<TargetGroup>)
    ensures forall g :: g in r ==> g in groups
    decreases |groups|
  {
    if |groups| == 0 then []
    else
      var g := groups[0];
      (if g.LoadBalancerArns.Some? && lbArn in g.LoadBalancerArns.value then [g] else [])
        + GroupsOf(groups[1..], lbArn)
  }

  /**
   * `describeRules({ ListenerArn, PageSize, Marker })`. The marker is the
   * offset of the page; the next marker is returned only while rules remain.
   */
  function RulesResponse(store: map<string, seq<Rule>>, listenerArn: string, pageSize: nat,
                         marker: Option<nat>): (r: Result<RulesPage, Error>)
    requires pageSize > 0
    ensures r.Ok? <==> listenerArn in store
    ensures r.Ok? ==> |r.value.Rules| <= pageSize
  {
    if listenerArn !in store then Err(NotFound("Listener"))
    else
      var rules := store[listenerArn];
      var start := match marker case None => 0 case Some(k) => k;
      var lo := if start <= |rules| then start else |rules|;
      var hi := if lo + pageSize <= |rules| then lo + pageSize else |rules|;
      Ok(RulesPage(rules[lo..hi], if lo + pageSize < |rules| then Some(lo + pageSize) else None))
  }

  class ElbService {
    const TargetGroups: seq<TargetGroup>
    const Listeners: map<string, Listener>
    const RuleStore: map<string, seq<Rule>>
    const LoadBalancers: map<string, LoadBalancer>

    ghost var TargetGroupRequests: seq<TargetGroup>
    ghost var RuleRequests: seq<Rule>
    ghost var ListenerRequests: seq<Listener>
    ghost var LoadBalancerRequests: seq<LoadBalancer>
    /** Names asked for through `describeTargetGroups({ Names: [name] })`, in call order. */
    ghost var TargetGroupDescribes: seq<Option<string>>

    constructor (groups: seq<TargetGroup>, listeners: map<string, Listener>,
                 rules: map<string, seq<Rule>>, lbs: map<string, LoadBalancer>)
      ensures TargetGroups == groups && Listeners == listeners
      ensures RuleStore == rules && LoadBalancers == lbs
      ensures TargetGroupRequests == [] && RuleRequests == []
      ensures ListenerRequests == [] && LoadBalancerRequests == [] && TargetGroupDescribes == []
    {
      TargetGroups, Listeners, RuleStore, LoadBalancers := groups, listeners, rules, lbs;
      TargetGroupRequests, RuleRequests, ListenerRequests, LoadBalancerRequests := [], [], [], [];
      TargetGroupDescribes := [];
    }

    method DescribeLoadBalancer(arn: string) returns (r: Result<LoadBalancer, Error>)
      ensures r == if arn in LoadBalancers then Ok(LoadBalancers[arn]) else Err(NotFound("LoadBalancer"))
    {
      r := if arn in LoadBalancers then Ok(LoadBalancers[arn]) else Err(NotFound("LoadBalancer"));
    }

    method DescribeTargetGroupsOf(lbArn: string) returns (r: Result<seq<TargetGroup>, Error>)
      ensures r == if lbArn in LoadBalancers then Ok(GroupsOf(TargetGroups, lbArn))
                   else Err(NotFound("LoadBalancer"))
    {
      r := if lbArn in LoadBalancers then Ok(GroupsOf(TargetGroups, lbArn)) else Err(NotFound("LoadBalancer"));
    }

    method DescribeTargetGroup(name: Option<string>) returns (r: Result<TargetGroup, Error>)
      modifies this
      ensures r == DescribeByName(TargetGroups, name)
      ensures TargetGroupDescribes == old(TargetGroupDescribes) + [name]
      ensures TargetGroupRequests == old(TargetGroupRequests) && RuleRequests == old(RuleRequests)
      ensures ListenerRequests == old(ListenerRequests) && LoadBalancerRequests == old(LoadBalancerRequests)
    {
      r := DescribeByName(TargetGroups, name);
      TargetGroupDescribes := TargetGroupDescribes + [name];
    }

    method DescribeListener(arn: string) returns (r: Result<Listener, Error>)
      ensures r == if arn in Listeners then Ok(Listeners[arn]) else Err(NotFound("Listener"))
    {
      r := if arn in Listeners then Ok(Listeners[arn]) else Err(NotFound("Listener"));
    }

    method DescribeRules(listenerArn: string, pageSize: nat, marker: Option<nat>)
      returns (r: Result<RulesPage, Error>)
      requires pageSize > 0
      ensures r == RulesResponse(RuleStore, listenerArn, pageSize, marker)
    {
      r := RulesResponse(RuleStore, listenerArn, pageSize, marker);
    }

    method CreateTargetGroup(req: TargetGroup) returns (tg: TargetGroup)
      modifies this
      ensures tg == CreatedTargetGroup(req)
      ensures TargetGroupRequests == old(TargetGroupRequests) + [req]
      ensures RuleRequests == old(RuleRequests) && ListenerRequests == old(ListenerRequests)
      ensures LoadBalancerRequests == old(LoadBalancerRequests) && TargetGroupDescribes == old(TargetGroupDescribes)
    {
      tg := CreatedTargetGroup(req);
      TargetGroupRequests := TargetGroupRequests + [req];
    }

    method CreateRule(req: Rule) returns (rule: Rule)
      modifies this
      ensures rule == CreatedRule(req)
      ensures RuleRequests == old(RuleRequests) + [req]
      ensures TargetGroupRequests == old(TargetGroupRequests) && ListenerRequests == old(ListenerRequests)
      ensures LoadBalancerRequests == old(LoadBalancerRequests) && TargetGroupDescribes == old(TargetGroupDescribes)
    {
      rule := CreatedRule(req);
      RuleRequests := RuleRequests + [req];
    }

    method CreateListener(req: Listener) returns (l: Listener)
      modifies this
      ensures l == CreatedListener(req)
      ensures ListenerRequests == old(ListenerRequests) + [req]
      ensures TargetGroupRequests == old(TargetGroupRequests) && RuleRequests == old(RuleRequests)
      ensures LoadBalancerRequests == old(LoadBalancerRequests) && TargetGroupDescribes == old(TargetGroupDescribes)
    {
      l := CreatedListener(req);
      ListenerRequests := ListenerRequests + [req];
    }

    method CreateLoadBalancer(req: LoadBalancer) returns (lb: LoadBalancer)
      modifies this
      ensures lb == CreatedLoadBalancer(req)
      ensures LoadBalancerRequests == old(LoadBalancerRequests) + [req]
      ensures TargetGroupRequests == old(TargetGroupRequests) && RuleRequests == old(RuleRequests)
      ensures ListenerRequests == old(ListenerRequests) && TargetGroupDescribes == old(TargetGroupDescribes)
    {
      lb := CreatedLoadBalancer(req);
      LoadBalancerRequests := LoadBalancerRequests + [req];
    }
  }
}

=== FILE: paging.dfy ===
/**
 * The rule listing of `copyRules`: pages of PAGE_SIZE rules are requested and
 * concatenated until a page comes back shorter than PAGE_SIZE. The marker is
 * passed along but never decides when to stop. `fuel` bounds the number of
 * describe calls; running out of it stands for a loop that does not stop.
 */
module Paging {
  import opened Wrappers
  import opened Records
  import opened FakeElb

  function Prepend(rules: seq<Rule>, rest: Result<seq<Rule>, Error>): Result<seq<Rule>, Error>
  {
    match rest
    case Ok(more) => Ok(rules + more)
    case Err(e) => Err(e)
  }

  lemma PrependConcat(a: seq<Rule>, b: seq<Rule>, rest: Result<seq<Rule>, Error>)
    ensures Prepend([], rest) == rest
    ensures Prepend(a, Prepend(b, rest)) == Prepend(a + b, rest)
  {
    if rest.Ok? {
      assert [] + rest.value == rest.value;
      assert a + (b + rest.value) == (a + b) + rest.value;
    }
  }

  /** What the listing loop accumulates, started at `marker`, within `fuel` describe calls. */
  function ListedRules(store: map<string, seq<Rule>>, listenerArn: string, marker: Option<nat>,
                       fuel: nat): (r: Result<seq<Rule>, Error>)
    ensures r.Ok? ==> listenerArn in store
    ensures fuel > 0 && listenerArn !in store ==> r == Err(NotFound("Listener"))
    decreases fuel
  {
    if fuel == 0 then Err(OutOfFuel)
    else
      match RulesResponse(store, listenerArn, PAGE_SIZE, marker)
      case Err(e) => Err(e)
      case Ok(page) =>
        if |page.Rules| < PAGE_SIZE then Ok(page.Rules)
        else Prepend(page.Rules, ListedRules(store, listenerArn, page.NextMarker, fuel - 1))
  }

  /** The stopping rule of cursor pagination: also stop when no marker comes back. */
  function ListedRulesFollowingMarker(store: map<string, seq<Rule>>, listenerArn: string,
                                      marker: Option<nat>, fuel: nat): Result<seq<Rule>, Error>
    decreases fuel
  {
    if fuel == 0 then Err(OutOfFuel)
    else
      match RulesResponse(store, listenerArn, PAGE_SIZE, marker)
      case Err(e) => Err(e)
      case Ok(page) =>
        if |page.Rules| < PAGE_SIZE || page.NextMarker.None? then Ok(page.Rules)
        else Prepend(page.Rules, ListedRulesFollowingMarker(store, listenerArn, page.NextMarker, fuel - 1))
  }

  lemma {:induction false} ListingFromOffset(store: map<string, seq<Rule>>, listenerArn: string, off: nat, fuel: nat)
    requires listenerArn in store && off <= |store[listenerArn]|
    requires (|store[listenerArn]| - off) % PAGE_SIZE != 0 || off == |store[listenerArn]|
    requires fuel > (|store[listenerArn]| - off) / PAGE_SIZE
    ensures ListedRules(store, listenerArn, Some(off), fuel) == Ok(store[listenerArn][off..])
    decreases |store[listenerArn]| - off
  {
    var rules := store[listenerArn];
    var page := RulesResponse(store, listenerArn, PAGE_SIZE, Some(off)).value;
    if off + PAGE_SIZE <= |rules| {
      assert off + PAGE_SIZE < |rules|;
      assert page.NextMarker == Some(off + PAGE_SIZE);
      ListingFromOffset(store, listenerArn, off + PAGE_SIZE, fuel - 1);
      assert rules[off..] == rules[off..off + PAGE_SIZE] + rules[off + PAGE_SIZE..];
    } else {
      assert page.Rules == rules[off..];
    }
  }

  /**
   * When the number of rules is not a positive multiple of PAGE_SIZE, the
   * listing stops after |rules| / PAGE_SIZE + 1 calls with every rule, in order.
   */
  lemma ListingCollectsAllRules(store: map<string, seq<Rule>>, listenerArn: string, fuel: nat)
    requires listenerArn in store
    requires |store[listenerArn]| % PAGE_SIZE != 0 || |store[listenerArn]| == 0
    requires fuel > |store[listenerArn]| / PAGE_SIZE
    ensures ListedRules(store, listenerArn, None, fuel) == Ok(store[listenerArn])
  {
    ListingFromOffset(store, listenerArn, 0, fuel);
    assert RulesResponse(store, listenerArn, PAGE_SIZE, None)
        == RulesResponse(store, listenerArn, PAGE_SIZE, Some(0));
    assert store[listenerArn][0..] == store[listenerArn];
  }

  lemma {:induction false} ListingCycles(store: map<string, seq<Rule>>, listenerArn: string,
                                         marker: Option<nat>, fuel: nat)
    requires listenerArn in store && |store[listenerArn]| % PAGE_SIZE == 0
    requires marker.Some? ==> marker.value < |store[listenerArn]| && marker.value % PAGE_SIZE == 0
    requires marker.None? ==> |store[listenerArn]| > 0
    ensures ListedRules(store, listenerArn, marker, fuel) == Err(OutOfFuel)
    decreases fuel
  {
    if fuel > 0 {
      var page := RulesResponse(store, listenerArn, PAGE_SIZE, marker).value;
      ListingCycles(store, listenerArn, page.NextMarker, fuel - 1);
    }
  }

  /**
   * When the number of rules is a positive multiple of PAGE_SIZE, the last
   * page is full and comes back without a marker, so the loop asks for the
   * first page again: no bound on the describe calls lets it stop.
   */
  lemma ListingNeverEndsOnFullLastPage(store: map<string, seq<Rule>>, listenerArn: string, fuel: nat)
    requires listenerArn in store
    requires |store[listenerArn]| > 0 && |store[listenerArn]| % PAGE_SIZE == 0
    ensures ListedRules(store, listenerArn, None, fuel) == Err(OutOfFuel)
  {
    ListingCycles(store, listenerArn, None, fuel);
  }

  lemma {:induction false} MarkerListingFromOffset(store: map<string, seq<Rule>>, listenerArn: string,
                                                   off: nat, fuel: nat)
    requires listenerArn in store && off <= |store[listenerArn]|
    requires fuel > (|store[listenerArn]| - off) / PAGE_SIZE
    ensures ListedRulesFollowingMarker(store, listenerArn, Some(off), fuel) == Ok(store[listenerArn][off..])
    decreases |store[listenerArn]| - off
  {
    var rules := store[listenerArn];
    var page := RulesResponse(store, listenerArn, PAGE_SIZE, Some(off)).value;
    if off + PAGE_SIZE < |rules| {
      MarkerListingFromOffset(store, listenerArn, off + PAGE_SIZE, fuel - 1);
      assert rules[off..] == rules[off..off + PAGE_SIZE] + rules[off + PAGE_SIZE..];
    } else {
      assert page.Rules == rules[off..];
    }
  }

  /** Stopping also on a missing marker collects every rule, whatever their number. */
  lemma MarkerListingCollectsAllRules(store: map<string, seq<Rule>>, listenerArn: string, fuel: nat)
    requires listenerArn in store
    requires fuel > |store[listenerArn]| / PAGE_SIZE
    ensures ListedRulesFollowingMarker(store, listenerArn, None, fuel) == Ok(store[listenerArn])
  {
    MarkerListingFromOffset(store, listenerArn, 0, fuel);
    assert RulesResponse(store, listenerArn, PAGE_SIZE, None)
        == RulesResponse(store, listenerArn, PAGE_SIZE, Some(0));
    assert store[listenerArn][0..] == store[listenerArn];
  }

  lemma {:induction false} ListingResultFromOffset(store: map<string, seq<Rule>>, listenerArn: string,
                                                   off: nat, fuel: nat)
    requires listenerArn in store && off <= |store[listenerArn]| && off % PAGE_SIZE == 0
    requires ListedRules(store, listenerArn, Some(off), fuel).Ok?
    ensures ListedRules(store, listenerArn, Some(off), fuel) == Ok(store[listenerArn][off..])
    decreases fuel
  {
    var rules := store[listenerArn];
    var page := RulesResponse(store, listenerArn, PAGE_SIZE, Some(off)).value;
    if |page.Rules| == PAGE_SIZE {
      if page.NextMarker.None? {
        // a full last page without a marker sends the loop back to the first page
        ListingCycles(store, listenerArn, None, fuel - 1);
        assert false;
      }
      ListingResultFromOffset(store, listenerArn, off + PAGE_SIZE, fuel - 1);
      assert rules[off..] == rules[off..off + PAGE_SIZE] + rules[off + PAGE_SIZE..];
    } else {
      assert page.Rules == rules[off..];
    }
  }

  /** Whenever the listing as written stops, it has collected every rule, in order. */
  lemma ListingStopsOnlyWithAllRules(store: map<string, seq<Rule>>, listenerArn: string, fuel: nat)
    requires ListedRules(store, listenerArn, None, fuel).Ok?
    ensures listenerArn in store && ListedRules(store, listenerArn, None, fuel) == Ok(store[listenerArn])
  {
    assert RulesResponse(store, listenerArn, PAGE_SIZE, None)
        == RulesResponse(store, listenerArn, PAGE_SIZE, Some(0));
    ListingResultFromOffset(store, listenerArn, 0, fuel);
    assert store[listenerArn][0..] == store[listenerArn];
  }
}

=== FILE: records.dfy ===
/**
 * The load-balancing records the copy utility reads and sends, and the pure
 * transforms that turn a described record into a create request.
 *
 * Every record is a value: a property the utility `delete`s becomes `None`,
 * and the attributes it never touches travel together in `Other`.
 */
module Records {
  import opened Wrappers

  /** Rule-listing page size (index.js:7). */
  const PAGE_SIZE: nat := 10

  const FORWARD := "forward"
  const FIXED_RESPONSE := "fixed-response"
  const REDIRECT := "redirect"

  /** Attributes copied verbatim (ports, protocols, health checks, ...). */
  type Attributes = map<string, string>

  datatype Action = Action(
    Type: string,
    TargetGroupArn: Option<string>,
    ForwardConfig: Option<Attributes>,
    Other: Attributes)

  datatype Condition = Condition(
    HostHeaderConfig: Option<Attributes>,
    PathPatternConfig: Option<Attributes>,
    Other: Attributes)

  datatype Rule = Rule(
    RuleArn: Option<string>,
    ListenerArn: Option<string>,
    Priority: Option<string>,
    IsDefault: Option<bool>,
    Conditions: seq<Condition>,
    Actions: seq<Action>)

  datatype TargetGroup = TargetGroup(
    Name: Option<string>,
    TargetGroupName: Option<string>,
    TargetGroupArn: Option<string>,
    LoadBalancerArns: Option<seq<string>>,
    Other: Attributes)

  datatype Listener = Listener(
    ListenerArn: Option<string>,
    LoadBalancerArn: Option<string>,
    DefaultActions: seq<Action>,
    Other: Attributes)

  datatype AvailabilityZone = AvailabilityZone(ZoneName: string, SubnetId: string)

  datatype LoadBalancer = LoadBalancer(
    LoadBalancerArn: Option<string>,
    LoadBalancerName: Option<string>,
    Name: Option<string>,
    DNSName: Option<string>,
    CanonicalHostedZoneId: Option<string>,
    CreatedTime: Option<string>,
    VpcId: Option<string>,
    State: Option<string>,
    AvailabilityZones: Option<seq<AvailabilityZone>>,
    Subnets: Option<seq<string>>,
    Other: Attributes)

  /** One page of a rule listing, with the continuation marker the service returned. */
  datatype RulesPage = RulesPage(Rules: seq<Rule>, NextMarker: Option<nat>)

  /** Why a step of the copy throws. */
  datatype Error =
    | NotFound(resource: string)               // the service rejects a describe
    | TypeError                                // a property of `undefined` is read
    | UnsupportedDefaultAction(actionType: string)
    | OutOfFuel                                // the listing loop did not stop within its bound

  /** A JavaScript template literal shows a missing value as "undefined". */
  function Interpolated(s: Option<string>): string
  {
    match s
    case Some(v) => v
    case None => "undefined"
  }

  /** `${prefix}-${name}`: the name a copied target group is given and looked up by. */
  function PrefixedName(prefix: string, name: Option<string>): (r: string)
    ensures |r| == |prefix| + 1 + |Interpolated(name)|
    ensures r[..|prefix|] == prefix && r[|prefix|] == '-' && r[|prefix| + 1..] == Interpolated(name)
  {
    prefix + "-" + Interpolated(name)
  }

  lemma PrefixedNameInjective(prefix: string, a: Option<string>, b: Option<string>)
    ensures PrefixedName(prefix, a) == PrefixedName(prefix, b) <==> Interpolated(a) == Interpolated(b)
  {
  }

  /** Target-group create request built from a described group (index.js:121-126). */
  function TargetGroupRequest(tg: TargetGroup, prefix: string): (req: TargetGroup)
    ensures req.Name == Some(PrefixedName(prefix, tg.TargetGroupName))
    ensures req.TargetGroupName.None? && req.TargetGroupArn.None? && req.LoadBalancerArns.None?
    ensures req.Other == tg.Other
  {
    tg.(Name := Some(PrefixedName(prefix, tg.TargetGroupName)),
        TargetGroupName := None, TargetGroupArn := None, LoadBalancerArns := None)
  }

  /**
   * The request depends on the source group only through its name and its
   * configuration: the identity fields are not carried over.
   */
  lemma TargetGroupRequestDependsOnNameAndConfig(a: TargetGroup, b: TargetGroup, prefix: string)
    ensures TargetGroupRequest(a, prefix) == TargetGroupRequest(b, prefix)
        <==> Interpolated(a.TargetGroupName) == Interpolated(b.TargetGroupName) && a.Other == b.Other
  {
  }

  /** A forward action pointed at `tgArn`, with its weighted forward configuration dropped. */
  function RetargetForward(a: Action, tgArn: Option<string>): (r: Action)
    ensures r.Type == a.Type && r.Other == a.Other
    ensures r.TargetGroupArn == tgArn && r.ForwardConfig.None?
  {
    a.(TargetGroupArn := tgArn, ForwardConfig := None)
  }

  /** A condition without the host-header and path-pattern configurations. */
  function StripMatchConfigs(c: Condition): (r: Condition)
    ensures r.HostHeaderConfig.None? && r.PathPatternConfig.None? && r.Other == c.Other
  {
    c.(HostHeaderConfig := None, PathPatternConfig := None)
  }

  /** The rules `copyRules` reproduces: non-default rules whose first action forwards. */
  predicate Qualifies(r: Rule)
    ensures r.IsDefault != Some(false) ==> !Qualifies(r)
    ensures Qualifies(r) ==> |r.Actions| > 0 && r.Actions[0].Type == FORWARD
  {
    |r.Actions| > 0 && r.Actions[0].Type == FORWARD && r.IsDefault == Some(false)
  }

  /**
   * Rule create request (index.js:181-201). Reading `Conditions[0]` of a rule
   * without conditions throws.
   */
  function RuleRequest(src: Rule, tgArn: Option<string>, listenerArn: string): (r: Result<Rule, Error>)
    requires |src.Actions| > 0
    ensures r.Ok? <==> |src.Conditions| > 0
    ensures r.Err? ==> r.error == TypeError
    ensures r.Ok? ==>
      && r.value.RuleArn.None? && r.value.IsDefault.None?
      && r.value.ListenerArn == Some(listenerArn)
      && r.value.Priority == src.Priority
      && |r.value.Actions| == |src.Actions|
      && r.value.Actions[0] == RetargetForward(src.Actions[0], tgArn)
      && (forall i :: 1 <= i < |src.Actions| ==> r.value.Actions[i] == src.Actions[i])
      && |r.value.Conditions| == |src.Conditions|
      && r.value.Conditions[0] == StripMatchConfigs(src.Conditions[0])
      && (forall i :: 1 <= i < |src.Conditions| ==> r.value.Conditions[i] == src.Conditions[i])
  {
    if |src.Conditions| == 0 then Err(TypeError)
    else
      Ok(src.(RuleArn := None, IsDefault := None, ListenerArn := Some(listenerArn),
              Actions := [RetargetForward(src.Actions[0], tgArn)] + src.Actions[1..],
              Conditions := [StripMatchConfigs(src.Conditions[0])] + src.Conditions[1..]))
  }

  /** Copying a copied rule to the same target group and listener changes nothing. */
  lemma RuleRequestIdempotent(src: Rule, tgArn: Option<string>, listenerArn: string)
    requires |src.Actions| > 0
    ensures var r := RuleRequest(src, tgArn, listenerArn);
      r.Ok? ==> RuleRequest(r.value, tgArn, listenerArn) == r
  {
  }

  /** Default-action types `copyListener` accepts (index.js:232-262). */
  predicate SupportedDefaultAction(actionType: string)
    ensures actionType == "authenticate-oidc" || actionType == "authenticate-cognito" ==>
              !SupportedDefaultAction(actionType)
    ensures actionType == FORWARD ==> SupportedDefaultAction(actionType)
  {
    actionType == FORWARD || actionType == FIXED_RESPONSE || actionType == REDIRECT
  }

  /**
   * Listener create request (index.js:250-265): a forward default action is
   * retargeted, a fixed-response or redirect one is kept as it is.
   */
  function ListenerRequest(src: Listener, tgArn: Option<string>, destLbArn: string): (r: Listener)
    requires |src.DefaultActions| > 0 && SupportedDefaultAction(src.DefaultActions[0].Type)
    ensures r.ListenerArn.None? && r.LoadBalancerArn == Some(destLbArn) && r.Other == src.Other
    ensures |r.DefaultActions| == |src.DefaultActions|
    ensures r.DefaultActions[0] ==
      if src.DefaultActions[0].Type == FORWARD then RetargetForward(src.DefaultActions[0], tgArn)
      else src.DefaultActions[0]
    ensures forall i :: 1 <= i < |src.DefaultActions| ==> r.DefaultActions[i] == src.DefaultActions[i]
  {
    var actions :=
      if src.DefaultActions[0].Type == FORWARD then
        [RetargetForward(src.DefaultActions[0], tgArn)] + src.DefaultActions[1..]
      else src.DefaultActions;
    src.(DefaultActions := actions, ListenerArn := None, LoadBalancerArn := Some(destLbArn))
  }

  /** Copying a copied listener to the same target group and load balancer changes nothing. */
  lemma ListenerRequestIdempotent(src: Listener, tgArn: Option<string>, destLbArn: string)
    requires |src.DefaultActions| > 0 && SupportedDefaultAction(src.DefaultActions[0].Type)
    ensures ListenerRequest(ListenerRequest(src, tgArn, destLbArn), tgArn, destLbArn)
         == ListenerRequest(src, tgArn, destLbArn)
  {
  }

  /** The subnet of each availability zone, in order (index.js:62-66). */
  function SubnetIds(azs: seq<AvailabilityZone>): (ids: seq<string>)
  {
    seq(|azs|, i requires 0 <= i < |azs| => azs[i].SubnetId)
  }

  /**
   * Load-balancer create request (index.js:60-77). Iterating the zones of a
   * load balancer that has none throws.
   */
  function LoadBalancerRequest(lb: LoadBalancer, destName: string): (r: Result<LoadBalancer, Error>)
    ensures r.Ok? <==> lb.AvailabilityZones.Some?
    ensures r.Err? ==> r.error == TypeError
    ensures r.Ok? ==>
      && r.value.Name == Some(destName)
      && r.value.Subnets.Some?
      && |r.value.Subnets.value| == |lb.AvailabilityZones.value|
      && (forall i :: 0 <= i < |lb.AvailabilityZones.value| ==>
            r.value.Subnets.value[i] == lb.AvailabilityZones.value[i].SubnetId)
      && r.value.AvailabilityZones.None? && r.value.CanonicalHostedZoneId.None?
      && r.value.CreatedTime.None? && r.value.DNSName.None? && r.value.LoadBalancerArn.None?
      && r.value.LoadBalancerName.None? && r.value.VpcId.None? && r.value.State.None?
      && r.value.Other == lb.Other
  {
    match lb.AvailabilityZones
    case None => Err(TypeError)
    case Some(azs) =>
      Ok(lb.(Subnets := Some(SubnetIds(azs)), Name := Some(destName),
             AvailabilityZones := None, CanonicalHostedZoneId := None, CreatedTime := None,
             DNSName := None, LoadBalancerArn := None, LoadBalancerName := None,
             VpcId := None, State := None))
  }

  /**
   * Two load balancers whose zones name the same subnets and whose remaining
   * configuration agrees give the same request: everything the service
   * assigned is left behind.
   */
  lemma LoadBalancerRequestDropsServerFields(a: LoadBalancer, b: LoadBalancer, destName: string)
    requires a.AvailabilityZones.Some? && b.AvailabilityZones.Some?
    requires SubnetIds(a.AvailabilityZones.value) == SubnetIds(b.AvailabilityZones.value)
    requires a.Other == b.Other
    ensures LoadBalancerRequest(a, destName) == LoadBalancerRequest(b, destName)
  {
  }

  /** A request cannot be sent through the transform again: its zones are gone. */
  lemma LoadBalancerRequestNotReusable(lb: LoadBalancer, destName: string)
    requires lb.AvailabilityZones.Some?
    ensures LoadBalancerRequest(LoadBalancerRequest(lb, destName).value, destName) == Err(TypeError)
  {
  }

  /** Index of the first group called `name` (`Array.prototype.find` scans from the front). */
  function FindIndex(groups: seq<TargetGroup>, name: string): (r: Option<nat>)
    ensures r.Some? ==> r.value < |groups| && groups[r.value].TargetGroupName == Some(name)
    ensures r.Some? ==> forall j :: 0 <= j < r.value ==> groups[j].TargetGroupName != Some(name)
    ensures r.None? ==> forall j :: 0 <= j < |groups| ==> groups[j].TargetGroupName != Some(name)
    decreases |groups|
  {
    if |groups| == 0 then None
    else if groups[0].TargetGroupName == Some(name) then Some(0)
    else
      match FindIndex(groups[1..], name)
      case None => None
      case Some(i) => Some(i + 1)
  }

  /** The first group called `name`, if any. */
  function FindByName(groups: seq<TargetGroup>, name: string): (r: Option<TargetGroup>)
    ensures r.Some? <==> exists j :: 0 <= j < |groups| && groups[j].TargetGroupName == Some(name)
    ensures r.Some? ==> r.value.TargetGroupName == Some(name)
  {
    match FindIndex(groups, name)
    case None => None
    case Some(i) => Some(groups[i])
  }

  /** Appending groups does not change which group a successful search finds. */
  lemma {:induction false} FindByNameAppend(groups: seq<TargetGroup>, more: seq<TargetGroup>, name: string)
    requires FindByName(groups, name).Some?
    ensures FindByName(groups + more, name) == FindByName(groups, name)
  {
    var i := FindIndex(groups, name).value;
    forall j | 0 <= j <= i ensures (groups + more)[j] == groups[j] {}
  }

  /** A search that failed finds a group appended under that name. */
  lemma {:induction false} FindByNameAppendNew(groups: seq<TargetGroup>, tg: TargetGroup, name: string)
    requires FindByName(groups, name).None?
    requires tg.TargetGroupName == Some(name)
    ensures FindByName(groups + [tg], name) == Some(tg)
  {
    assert (groups + [tg])[|groups|] == tg;
    forall j | 0 <= j < |groups| ensures (groups + [tg])[j] == groups[j] {}
  }
}

=== FILE: wrappers.dfy ===
/** Failure-compatible wrappers used throughout the model. */
module Wrappers {

  /** A value that may be absent: a JavaScript property that is `undefined`. */
  datatype Option<+T> = None | Some(value: T)

  /** The outcome of an operation that may throw. */
  datatype Result<+T, +E> = Ok(value: T) | Err(error: E)
}
